=== FILE: README.md ===
# Writer image manager, message sanitizer and helpers of MathModelAgent, in Dafny

This project models the parts of MathModelAgent's backend that enforce a
policy on figures and chat history. It covers:

- **`WriterImageManager`**, which keeps each section of a generated paper
  to the figures of its own directory (`eda/figures/`,
  `sensitivity_analysis/figures/`, `ques<N>/figures/`) and stops two
  sections from using the same figure. It has four parts:
  - path normalisation and the section-to-directory rule;
  - *prepare*: filter the candidate images before a section is written;
  - *validate and register*: find the images the written text uses, report
    violations, and record the claims in the per-task manifest
    `res_used_image.json`;
  - *audit*: re-check that manifest.
- **`MessageSanitizer.sanitize_messages`**, which merges adjacent plain-text
  user and assistant messages before a chat request.
- **`get_current_files`** (file listing by kind) and **`create_task_id`**
  (the next zero-padded task number).
- **`parse_cors`**, which splits the CORS origins setting.

Python semantics the model writes out:

- `str.strip` with Python's whitespace set.
- `re.findall` for the markdown image pattern, as a deterministic scanner.
- `re.findall(re.escape(p), …)` as a non-overlapping occurrence count.
- `split(',')`.
- `sorted(set(…))` as an ascending, duplicate-free list under Python's
  string order.

The file system, the clock and the manifest file become values:

- A directory listing is a sequence of names (`None` when the directory
  does not exist).
- The manifest file is a `Stored` value: missing, unreadable, or a document.
- Saving takes the current time as a parameter.
- A call that rewrites the manifest returns the new `Stored` value.

Modules:

- `Collections`: optional values and order-preserving filtering.
- `Text`: string primitives.
- `LexOrder`: string order and sorting.
- `Decimal`: digit strings.
- `PathPolicy`: `_norm`, `_strip_task_prefix`, `_allowed_dir_for_section`
  and `_in_allowed_dir`.
- `MarkdownImages`: the image-reference scanner.
- `Manifest`: loading and saving the manifest.
- `ImageManager`: prepare, and validate-and-register.
- `ImageAudit`: the audit.
- `MessageSanitizer`: message merging.
- `CommonUtils`: the file listing and the task-id allocator.
- `Settings`: the CORS parser.

Two points where a reader of the code's comments might expect otherwise;
the model follows the code:

- `_allowed_dir_for_section` matches `^ques(\d+)$`, which accepts any digit
  string, so `ques0` and `ques007` are recognised (agent_utils.py:69-71).
- Two adjacent plain texts merge whenever each is a user or an assistant
  message, even if their roles differ (llm_utils.py:82-91). The comment
  above the function says "same role" (llm_utils.py:64).

## Model

| member | source | states |
|---|---|---|
| PathPolicy.Norm | backend/app/core/agents/agent_utils.py:49-52 | a normalised path holds no backslash, has no leading or trailing whitespace, and is never longer than the input |
| PathPolicy.NormAsWritten | backend/app/core/agents/agent_utils.py:49-52 | the normal form is exactly the stripped path with every backslash replaced by `/`, in the source's order: strip, then replace |
| PathPolicy.NormIdempotent | backend/app/core/agents/agent_utils.py:49-52 | normalising an already normalised path changes nothing |
| PathPolicy.StripTaskPrefix | backend/app/core/agents/agent_utils.py:55-60 | if the normalised path starts with `<task_id>/` (task id trimmed, trailing slashes dropped), that prefix followed by the result gives back the normalised path; otherwise the result is the normalised path |
| PathPolicy.StripTaskPrefixRoundTrip | backend/app/core/agents/agent_utils.py:55-60 | for a normal path, adding the task prefix and stripping it returns the path |
| PathPolicy.StripTaskPrefixOnce | backend/app/core/agents/agent_utils.py:55-60 | only one copy of a doubled task prefix is removed |
| PathPolicy.AllowedDirForName | backend/app/core/agents/agent_utils.py:65-72 | the directory is empty exactly when the name is not `eda`, `sensitivity_analysis` or `ques` followed by digits; otherwise it is the name followed by `/figures/` |
| PathPolicy.AllowedDirForSection | backend/app/core/agents/agent_utils.py:63-72 | the same rule applied to the trimmed, slash-normalised and lower-cased section name |
| PathPolicy.QuesDirectory | backend/app/core/agents/agent_utils.py:69-71 | `ques` followed by any digit string, including `0` and leading zeros, maps to its own `figures/` directory |
| PathPolicy.FixedDirectories | backend/app/core/agents/agent_utils.py:65-72 | `eda` and `sensitivity_analysis` map to their directories; a bare `ques` and the empty name map to no directory |
| PathPolicy.AllowedDirCaseInsensitive | backend/app/core/agents/agent_utils.py:64 | two section names equal up to ASCII case get the same directory |
| PathPolicy.AllowedDirIsNormal | backend/app/core/agents/agent_utils.py:63-78 | every directory the rule returns is already normal, so normalising it again in the prefix test changes nothing |
| PathPolicy.InAllowedDir | backend/app/core/agents/agent_utils.py:75-78 | the directory test: false for a directory that normalises to empty, otherwise the normalised path starts with the normalised directory |
| PathPolicy.InAllowedDirOfSection | backend/app/core/agents/agent_utils.py:63-78 | for a section's directory, a path passes exactly when the section is recognised and the normalised path starts with `<section>/figures/`; an unrecognised section admits no path |
| PathPolicy.UnnamedSectionHasNoDirectory | backend/app/core/agents/agent_utils.py:63-78 | the empty section name admits no path |
| PathPolicy.InAllowedDirNorm | backend/app/core/agents/agent_utils.py:75-78 | the directory test gives the same answer for a path and for its normalised form |
| PathPolicy.SectionDirectoriesDisjoint | backend/app/core/agents/agent_utils.py:62-72 | a path lies in the figures directories of two recognised sections only if the sections are the same |
| MarkdownImages.MatchAt | backend/app/core/agents/agent_utils.py:22 | a reference found at the front has a positive length within the text and a non-empty target without `)`; and the text up to that length is exactly `![alt](target)` for some alternative text without `]` |
| MarkdownImages.Targets | backend/app/core/agents/agent_utils.py:22 | every target the scan returns is non-empty and contains no `)`; which targets come back, in order, is fixed by ImageFirst and NoMatchSkipped |
| MarkdownImages.ImageFirst | backend/app/core/agents/agent_utils.py:22 | a well-formed `![alt](target)` at the front yields exactly its target, and the scan resumes right after it |
| MarkdownImages.PlainTextSkipped | backend/app/core/agents/agent_utils.py:22 | text without `!` contributes no target |
| MarkdownImages.NoMatchSkipped | backend/app/core/agents/agent_utils.py:22 | text at none of whose positions a reference starts contributes no target, whatever follows it; with MatchAt and ImageFirst this fixes the targets of every text |
| MarkdownImages.DoubledBangSkipped | backend/app/core/agents/agent_utils.py:22 | a doubled `!` before a reference does not hide it: `!![x](a.png)` yields `a.png` |
| MarkdownImages.BangSpaceSkipped | backend/app/core/agents/agent_utils.py:22 | a `!` ending a word does not hide the reference after it: `Note! ![x](a.png)` yields `a.png` |
| MarkdownImages.RenderRoundTrip | backend/app/core/agents/agent_utils.py:22 | scanning text built from well-formed references, each preceded by text without `!`, returns exactly their targets in order |
| MarkdownImages.EmptyTargetRejected | backend/app/core/agents/agent_utils.py:22 | `![alt]()` is not a reference |
| MarkdownImages.UnclosedRejected | backend/app/core/agents/agent_utils.py:22 | without a closing `)` there is no reference |
| Manifest.Load | backend/app/core/agents/agent_utils.py:29-35 | a missing or unreadable file reads as the empty manifest, and a missing `by_image` or `by_section` key reads as an empty map |
| Manifest.SaveLoadRoundTrip | backend/app/core/agents/agent_utils.py:38-45 | loading a saved manifest gives it back with the new time stamp |
| ImageManager.DiscoveredImages | backend/app/core/agents/agent_utils.py:98-109 | discovery returns nothing for an unrecognised section or a missing directory; otherwise the i-th path is the section's directory followed by the i-th `.png`/`.jpg` name of the listing, in listing order |
| ImageManager.Offered | backend/app/core/agents/agent_utils.py:99-109 | the candidates start from the paths passed in, or from the discovered ones when none were passed |
| ImageManager.CandidatePaths | backend/app/core/agents/agent_utils.py:112-116 | the i-th candidate is the task-prefix-stripped form of the i-th offered path that is not blank, so order and repetitions are kept; hence a candidate is exactly such a stripped form |
| ImageManager.PreRunPreparePrompt | backend/app/core/agents/agent_utils.py:88-124 | the prompt is returned unchanged; the filtered list keeps the candidate order and holds each candidate inside the section's directory that no section has claimed in `by_image` exactly as often as it is a candidate, repeats included, and nothing else; an unrecognised section gets an empty list |
| ImageManager.TwoPassFilter | backend/app/core/agents/agent_utils.py:117-120 | filtering by directory and then by `by_image` keeps the same list as one filter on both conditions |
| ImageManager.UsedImages | backend/app/core/agents/agent_utils.py:138-151 | the used images are sorted without duplicates; a path is used exactly when it is in the normalised filtered list and is either a markdown image target or a non-empty substring of the text |
| ImageManager.MarkdownPaths | backend/app/core/agents/agent_utils.py:142 | the markdown paths are exactly the scanned targets after task-prefix stripping |
| ImageManager.NotInAllowed | backend/app/core/agents/agent_utils.py:161 | the list holds exactly the markdown paths outside the normalised filtered list, sorted |
| ImageManager.DuplicateWithinSection | backend/app/core/agents/agent_utils.py:154-158 | the list holds exactly the used paths whose text occurs at least twice (non-overlapping), sorted |
| ImageManager.WrongSectionDir | backend/app/core/agents/agent_utils.py:164 | the list holds exactly the used paths outside the section's directory, sorted |
| ImageManager.CrossSectionConflict | backend/app/core/agents/agent_utils.py:171-175 | the list holds exactly the used paths whose recorded owner is non-empty and differs from the section, sorted |
| ImageManager.Register | backend/app/core/agents/agent_utils.py:171-181 | each used path without a conflicting owner becomes owned by the section; a conflicting owner is kept; every used path joins the section's list; no other entry or section changes |
| ImageManager.PostRunValidateAndRegister | backend/app/core/agents/agent_utils.py:131-196 | the used images and each of the four violation lists are characterised by membership and are strictly sorted; violations never block registration; the saved manifest is the registration stamped with the save time |
| ImageManager.PreparedListStaysInDirectory | backend/app/core/agents/agent_utils.py:117-164 | a list prepared for a section, when handed back for that section, never produces a wrong-directory violation |
| ImageManager.OfferedOnlyFromOwnDirectory | backend/app/core/agents/agent_utils.py:117 | an image offered for a section lies in no other recognised section's directory |
| ImageManager.RegisteredImagesNotOfferedAgain | backend/app/core/agents/agent_utils.py:120-177 | after an image is registered, no later preparation for any section offers the registered path (the same path string) |
| ImageManager.RegisterIdempotent | backend/app/core/agents/agent_utils.py:171-181 | registering the same images for the same section twice changes nothing the second time |
| ImageManager.PostRunIdempotent | backend/app/core/agents/agent_utils.py:131-196 | validating the same response twice reports the same used images and leaves the same manifest, apart from the time stamp |
| ImageManager.RegisterKeepsConsistent | backend/app/core/agents/agent_utils.py:171-181 | if every owner lists its image and every listed image has an owner entry before registration, both still hold after it |
| ImageAudit.MultiUsed | backend/app/core/agents/agent_utils.py:205-209 | an image is reported as multi-used exactly when two different sections list it |
| ImageAudit.CountAboveOneIffListedTwice | backend/app/core/agents/agent_utils.py:205-209 | the per-image count of listing sections exceeds one exactly when two distinct sections list the image |
| ImageAudit.WrongDirPairs | backend/app/core/agents/agent_utils.py:212-216 | a pair (image, owner) is reported exactly when `by_image` maps the image to that owner and the image is outside the owner's directory |
| ImageAudit.Audit | backend/app/core/agents/agent_utils.py:199-226 | the report's multi-used set is as above and its wrong-directory pairs are exactly those of the loaded `by_image`; `ok` holds exactly when no image is listed twice and every owned image is inside its owner's directory; a missing or unreadable manifest audits ok |
| ImageAudit.SharedImageReported | backend/app/core/agents/agent_utils.py:205-223 | an image listed by two sections is reported, and the audit is not ok |
| ImageAudit.ConflictShowsInAudit | backend/app/core/agents/agent_utils.py:171-209 | starting from a consistent manifest, a cross-section conflict makes the next audit report the image as multi-used |
| ImageAudit.RegisterWrongDirPairs | backend/app/core/agents/agent_utils.py:164-216 | registration adds no wrong-directory pair except images of this section that were reported as outside its directory |
| ImageAudit.RegisterKeepsClean | backend/app/core/agents/agent_utils.py:171-181 | registering images that have no conflict and lie in the section's directory keeps a clean, consistent manifest clean |
| ImageAudit.CleanAuditPreserved | backend/app/core/agents/agent_utils.py:131-226 | from a manifest that audits ok and is consistent, a section written without conflicts or wrong-directory images leaves a manifest that still audits ok |
| MessageSanitizer.SanitizeMessages | backend/app/core/llm/llm_utils.py:69-103 | a value that is not a list is returned unchanged; a list comes back as the merged list `Sanitize` describes, never longer |
| MessageSanitizer.Sanitize | backend/app/core/llm/llm_utils.py:73-103 | the result is no longer than the input and is non-empty when the input is; its value on every list is fixed by SanitizeAfterFixed, SanitizeSplits and SanitizeRun |
| MessageSanitizer.SanitizeLoop | backend/app/core/llm/llm_utils.py:73-99 | the in-place loop over a growing list computes the same result as the functional definition |
| MessageSanitizer.CanMerge | backend/app/core/llm/llm_utils.py:82-91 | the merge test: both the last kept message and the next one are dicts with role `user` or `assistant`, no `tool_calls` key and string content; the two roles need not be equal |
| MessageSanitizer.Absorb | backend/app/core/llm/llm_utils.py:93-97 | a merged message stays mergeable and keeps the earlier message's role and other keys |
| MessageSanitizer.SanitizeLeavesNoMergeablePair | backend/app/core/llm/llm_utils.py:82-99 | no two neighbouring messages of the result could be merged |
| MessageSanitizer.SanitizeKeepsFixed | backend/app/core/llm/llm_utils.py:75-77 | the messages that cannot merge (non-dicts, other roles, tool calls, non-string content) come out exactly as they went in, in order |
| MessageSanitizer.FixedMembers | backend/app/core/llm/llm_utils.py:75-91 | the messages counted as unmergeable are exactly the list's messages that fail the merge test's per-message conditions |
| MessageSanitizer.SanitizeIdempotent | backend/app/core/llm/llm_utils.py:69-103 | sanitizing a sanitized list changes nothing |
| MessageSanitizer.SanitizeSplits | backend/app/core/llm/llm_utils.py:82-99 | a message that cannot merge splits the list: the two sides are sanitized independently |
| MessageSanitizer.SanitizeAfterFixed | backend/app/core/llm/llm_utils.py:68-99 | a message that cannot merge stays first and verbatim, and the rest of the list is sanitized on its own behind it, so a mergeable message after it is neither dropped nor changed |
| MessageSanitizer.TwoTextsMerge | backend/app/core/llm/llm_utils.py:82-97 | two adjacent mergeable messages become the first one, whose content is the merged text |
| MessageSanitizer.SanitizeRun | backend/app/core/llm/llm_utils.py:82-97 | a run of mergeable messages becomes a single message: the first, with all texts merged into its content in order |
| MessageSanitizer.MergeTextJoins | backend/app/core/llm/llm_utils.py:94-96 | the merged text is the stripped parts joined by a blank line when both are non-blank, and otherwise just the non-blank part |
| CommonUtils.GetCurrentFiles | backend/app/utils/common_utils.py:93-108 | `all` returns the listing; `md`, `ipynb`, `data` and `image` keep, in order, exactly the names with their extensions; any other kind returns no list |
| CommonUtils.ImageKindExamples | backend/app/utils/common_utils.py:105-108 | the image kind keeps `.png` and `.jpg` and drops `.jpeg` |
| CommonUtils.CreateTaskId | backend/app/utils/common_utils.py:26-45 | the id is a digit string of at least three digits with no superfluous leading zero; its value exceeds every numeric directory's and is 1 or one more than some directory's; with no numeric directory it is `001` |
| CommonUtils.OneIsPadded | backend/app/utils/common_utils.py:44 | the only padded id with value 1 is `001` |
| Decimal.ToDecimal | backend/app/utils/common_utils.py:44 | decimal formatting yields digits denoting the number, with no leading zero unless the number is 0 |
| Decimal.ZeroPadded | backend/app/utils/common_utils.py:44 | `{n:03d}`-style padding yields digits denoting `n`, at least as long as the width, and padded only up to the width |
| Settings.ParseCors | backend/app/config/setting.py:7-15 | `*` alone gives `["*"]`; a value with commas gives one trimmed entry per comma-separated part; any other value gives a one-element list holding it |
| Settings.ParseCorsPartsRejoin | backend/app/config/setting.py:13-14 | the untrimmed parts join back with commas into the value, and no entry contains a comma |
| Settings.ParseCorsCommaSplits | backend/app/config/setting.py:13-14 | a value with a comma yields at least two origins |
| Text.Strip | backend/app/core/agents/agent_utils.py:52 | the stripped string starts and ends with non-whitespace and is never longer than the input; its value, the slice between the leading and trailing whitespace, is fixed by Text.StripSlice |
| Text.StripSlice | backend/app/core/agents/agent_utils.py:52 | the stripped string is the slice of the input after its leading whitespace, and everything outside that slice is whitespace |
| Text.StripIdempotent | backend/app/core/agents/agent_utils.py:52 | stripping twice is stripping once |
| Text.StripEmptyIffBlank | backend/app/core/agents/agent_utils.py:115 | a string strips to empty exactly when every character is whitespace |
| Text.ContainsAt | backend/app/core/agents/agent_utils.py:147 | substring containment holds exactly when the pattern occurs at some position |
| Text.CountOccurrences | backend/app/core/agents/agent_utils.py:156 | the non-overlapping left-to-right match count of a non-empty pattern: that many copies of the pattern fit in the text |
| Text.CountPositiveIffContains | backend/app/core/agents/agent_utils.py:156 | for a non-empty pattern, the match count is positive exactly when the text contains the pattern |
| Text.CountTwoCopies | backend/app/core/agents/agent_utils.py:156-157 | a pattern written twice in a row is counted at least twice |
| Text.CountTwoApart | backend/app/core/agents/agent_utils.py:155-158 | two occurrences of a non-empty pattern that do not overlap are counted at least twice, however far apart |
| Text.CountTwoIffTwoApart | backend/app/core/agents/agent_utils.py:155-158 | the count of a non-empty pattern is at least two exactly when the text holds two non-overlapping occurrences |
| Text.JoinSplit | backend/app/config/setting.py:14 | joining the pieces of a split with the separator gives back the string |
| Text.Split | backend/app/config/setting.py:14 | a split has one more piece than the string has separators, and no piece contains the separator |
| Text.LowerIdempotent | backend/app/core/agents/agent_utils.py:64 | lower-casing twice is lower-casing once |
| LexOrder.SortUnique | backend/app/core/agents/agent_utils.py:181-193 | `sorted(set(xs))` is strictly ascending and holds exactly the elements of `xs` |
| LexOrder.SortedUnique | backend/app/core/agents/agent_utils.py:181-193 | two strictly ascending lists with the same elements are equal, so the sorted output is determined by the set alone |
| LexOrder.LessTotal | backend/app/core/agents/agent_utils.py:188 | any two different strings are ordered one way or the other |
| LexOrder.LessTransitive | backend/app/core/agents/agent_utils.py:188 | the string order is transitive |
| Collections.Filter | backend/app/core/agents/agent_utils.py:112-120 | a list comprehension with a condition keeps exactly the satisfying elements, in order |
| Collections.FilterCount | backend/app/core/agents/agent_utils.py:117-120 | a filter keeps every satisfying element as often as it occurs and no other element |
| Collections.FilterFilter | backend/app/core/agents/agent_utils.py:117-120 | two successive filters equal one filter on the conjunction |

## Left out

- File-system effects: creating the work directory and the manifest's
  parent directory, the `exists`/`is_dir` checks, `os.listdir` and
  `iterdir`. A listing is given as a value, and a missing directory as
  `None`.
- The clock: `_save_manifest` stamps `int(time.time())`. The time is a
  parameter.
- `clear_manifest` (agent_utils.py:229-232): it only deletes the file. In
  the model, deleting it corresponds to the `Missing` value.
- JSON encoding and decoding. These are not modelled:
  - a manifest whose JSON root is not an object (the source raises on
    `.get`);
  - `by_image` owners that are not strings;
  - `by_section` lists that hold duplicates or are not lists.
- Manifest.Load: `by_section` is modelled as a map to sets. The file holds
  lists, and only the code's own writes make them duplicate-free and
  sorted. The audit counts each section once per image, which equals the
  source's count for such lists.
- ImageAudit.Audit: `multi_used_images` and `wrong_section_dir_pairs` are
  returned as sets, not sorted lists. Sorting affects presentation only.
- The returned dicts' echo fields are not modelled: `manifest_path`,
  `work_dir`, `by_image` and `by_section`.
- `_norm(None)` and `str(p)` for non-string paths: paths are strings
  throughout.
- `available_images=None` is treated like an empty list, as the source
  does.
- `filtered_images=None` and `response_text=None` in
  `post_run_validate_and_register` (agent_utils.py:138-139): the source reads
  them as `[]` and `""`. The model's parameters are a list and a string, so
  a caller holding `None` (a model reply without text content) passes `[]`
  and `""`, as the source does.
- PathPolicy.AllowedDirForSection: `lower()` is modelled on ASCII letters
  only. Python's Unicode case mapping is not modelled.
- PathPolicy.IsQuesName and CommonUtils.CreateTaskId: `\d` is modelled as
  ASCII digits only. Python's regex `\d` also matches other Unicode decimal
  digits.
- The pre-run prompt is returned unchanged. No prompt text is generated,
  and the source generates none either.
- The in-place mutation of the caller's message dicts by
  `sanitize_messages` is not modelled. The model returns new values. The
  unused `tools` parameter, `pretty_preview_messages` and the log line are
  left out.
- MessageSanitizer.Message: dict keys other than `role`, `content` and
  `tool_calls` are kept as an opaque string map. Other JSON values are
  kept as opaque representations.
- The rest of `common_utils.py`, the rest of `setting.py` (the `Settings`
  class) and the callers in `writer_agent.py` are not part of this model.

=== FILE: collections.dfy ===
/** Generic helpers over sequences shared by every other module: an optional
    value, order-preserving filtering and the sub-sequence relation. */
module Collections {

  /** A value that may be missing (Python's `None`). */
  datatype Option<T> = None | Some(value: T) {
    function GetOr(default: T): T {
      match this
      case Some(v) => v
      case None => default
    }
  }

  /** `a` can be obtained from `b` by deleting elements, keeping the order of
      the rest (greedy leftmost matching decides this exactly). */
  predicate IsSubsequence<T(==)>(a: seq<T>, b: seq<T>)
    decreases |b|
  {
    if |a| == 0 then true
    else if |b| == 0 then false
    else if a[0] == b[0] then IsSubsequence(a[1..], b[1..])
    else IsSubsequence(a, b[1..])
  }

  /** The elements of `s` that satisfy `keep`, in their original order
      (a Python list comprehension with an `if`). */
  function Filter<T(!new)>(keep: T -> bool, s: seq<T>): (r: seq<T>)
    ensures |r| <= |s|
    ensures forall x :: x in r <==> x in s && keep(x)
    ensures IsSubsequence(r, s)
  {
    if |s| == 0 then []
    else if keep(s[0]) then [s[0]] + Filter(keep, s[1..])
    else Filter(keep, s[1..])
  }

  /** Filtering keeps every kept element as often as it occurs and drops
      the others entirely. */
  lemma {:induction false} FilterCount<T(!new)>(keep: T -> bool, s: seq<T>)
    ensures forall x :: multiset(Filter(keep, s))[x] == if keep(x) then multiset(s)[x] else 0
    decreases |s|
  {
    if |s| > 0 {
      FilterCount(keep, s[1..]);
      assert s == [s[0]] + s[1..];
      assert multiset(s) == multiset{s[0]} + multiset(s[1..]);
    }
  }

  /** Filtering distributes over concatenation. */
  lemma {:induction false} FilterConcat<T(!new)>(keep: T -> bool, a: seq<T>, b: seq<T>)
    ensures Filter(keep, a + b) == Filter(keep, a) + Filter(keep, b)
    decreases |a|
  {
    if |a| == 0 {
      assert a + b == b;
    } else {
      assert (a + b)[0] == a[0];
      assert (a + b)[1..] == a[1..] + b;
      FilterConcat(keep, a[1..], b);
    }
  }

  /** Two successive filters are one filter with the conjunction `both`. */
  lemma {:induction false} FilterFilter<T(!new)>(f: T -> bool, g: T -> bool, both: T -> bool, s: seq<T>)
    requires forall x :: both(x) == (f(x) && g(x))
    ensures Filter(g, Filter(f, s)) == Filter(both, s)
    decreases |s|
  {
    if |s| > 0 {
      FilterFilter(f, g, both, s[1..]);
    }
  }

  lemma HeadIsMember<T>(s: seq<T>)
    requires |s| > 0
    ensures s[0] in s
  {
  }

  /** A sequence with no members is empty. */
  lemma NoMembersEmpty<T>(s: seq<T>)
    requires forall x :: x !in s
    ensures s == []
  {
    if |s| > 0 {
      HeadIsMember(s);
    }
  }
}

=== FILE: common_utils.dfy ===
/** Two helpers of the utility module, over an abstract directory listing
    instead of the file system: the file-name filter used to enumerate a
    folder, and the sequential task-id allocator. */
module CommonUtils {
  import opened Collections
  import opened Text
  import opened Decimal

  /** `get_current_files`: the listing unchanged for "all", the names with
      the kind's extensions for "md", "ipynb", "data" and "image", and no
      list at all (`None`) for any other kind. */
  function GetCurrentFiles(listing: seq<string>, kind: string): (r: Option<seq<string>>)
    ensures kind == "all" ==> r == Some(listing)
    ensures r.Some? <==> kind in {"all", "md", "ipynb", "data", "image"}
    ensures r.Some? ==> IsSubsequence(r.value, listing)
    ensures r.Some? && kind != "all" ==>
              forall f :: f in r.value <==> f in listing && HasKindExtension(f, kind)
  {
    if kind == "all" then
      SubsequenceOfItself(listing);
      Some(listing)
    else if kind == "md" || kind == "ipynb" || kind == "data" || kind == "image" then
      Some(Filter(f => HasKindExtension(f, kind), listing))
    else None
  }

  /** The extensions each kind keeps: ".md", ".ipynb", ".xlsx" or ".csv",
      and ".png" or ".jpg" (".jpeg" is not among them). */
  predicate HasKindExtension(name: string, kind: string) {
    if kind == "md" then EndsWith(name, ".md")
    else if kind == "ipynb" then EndsWith(name, ".ipynb")
    else if kind == "data" then EndsWith(name, ".xlsx") || EndsWith(name, ".csv")
    else if kind == "image" then EndsWith(name, ".png") || EndsWith(name, ".jpg")
    else false
  }

  lemma {:induction false} SubsequenceOfItself(s: seq<string>)
    ensures IsSubsequence(s, s)
    decreases |s|
  {
    if |s| > 0 {
      SubsequenceOfItself(s[1..]);
    }
  }

  /** The image filter keeps `.png` and `.jpg` names and drops `.jpeg`. */
  lemma ImageKindExamples(stem: string)
    ensures HasKindExtension(stem + ".png", "image")
    ensures HasKindExtension(stem + ".jpg", "image")
    ensures !HasKindExtension(stem + ".jpeg", "image")
  {
    var jpeg := stem + ".jpeg";
    assert jpeg[|jpeg| - 4..] == "jpeg";
    assert jpeg[|jpeg| - 4..] != ".png" && jpeg[|jpeg| - 4..] != ".jpg";
    assert (stem + ".png")[|stem|..] == ".png";
    assert (stem + ".jpg")[|stem|..] == ".jpg";
  }

  /** One entry of the work-directory listing. */
  datatype Entry = Entry(name: string, isDir: bool)

  /** An entry that counts as an earlier task: a directory whose whole name
      is digits. */
  predicate IsTaskDir(e: Entry) {
    e.isDir && IsDecimal(e.name)
  }

  /** `create_task_id`: one more than the largest numeric directory name
      (0 when there is none), zero-padded to at least three digits. */
  method CreateTaskId(entries: seq<Entry>) returns (id: string)
    ensures IsDecimal(id) && |id| >= 3
    ensures |id| > 3 ==> id[0] != '0'
    ensures forall e :: e in entries && IsTaskDir(e) ==> Value(e.name) < Value(id)
    ensures Value(id) == 1 || exists e :: e in entries && IsTaskDir(e) && Value(e.name) + 1 == Value(id)
    ensures (forall e :: e in entries ==> !IsTaskDir(e)) ==> id == "001"
  {
    var maxN := 0;
    var i := 0;
    while i < |entries|
      invariant 0 <= i <= |entries|
      invariant forall k :: 0 <= k < i && IsTaskDir(entries[k]) ==> Value(entries[k].name) <= maxN
      invariant maxN == 0 || exists k :: 0 <= k < i && IsTaskDir(entries[k]) && Value(entries[k].name) == maxN
      invariant (forall k :: 0 <= k < i ==> !IsTaskDir(entries[k])) ==> maxN == 0
    {
      var e := entries[i];
      if e.isDir && IsDecimal(e.name) {
        var n := Value(e.name);
        if n > maxN {
          maxN := n;
        }
      }
      i := i + 1;
    }
    id := ZeroPadded(maxN + 1, 3);
    if maxN == 0 {
      assert Value(id) == 1;
      OneIsPadded(id);
    }
  }

  /** The only three-or-more-digit string without a superfluous leading zero
      whose value is 1 is "001". */
  lemma OneIsPadded(id: string)
    requires IsDecimal(id) && |id| >= 3 && (|id| > 3 ==> id[0] != '0')
    requires Value(id) == 1
    ensures id == "001"
  {
    if |id| > 3 {
      ValueAtLeastLeading(id);
      assert false;
    }
    assert id[..2][..1] == id[..1];
    assert Value(id) == 10 * Value(id[..2]) + DigitValue(id[2]);
    assert Value(id[..2]) == 10 * Value(id[..1]) + DigitValue(id[1]);
    assert Value(id[..1]) == 10 * Value(id[..0]) + DigitValue(id[0]);
  }

  /** A digit string with a non-zero first digit of length at least two has
      value at least ten. */
  lemma {:induction false} ValueAtLeastLeading(s: string)
    requires IsDecimal(s) && |s| >= 2 && s[0] != '0'
    ensures Value(s) >= 10
    decreases |s|
  {
    var init := s[..|s| - 1];
    assert init[0] == s[0];
    if |init| >= 2 {
      ValueAtLeastLeading(init);
    } else {
      assert Value(init) == 10 * Value(init[..0]) + DigitValue(init[0]);
    }
  }
}

=== FILE: decimal.dfy ===
/** Decimal digit strings: `re.fullmatch(r"(\d{1,})", name)`, `int(name)` and
    the `f"{n:03d}"` formatting used for task ids. Only the ASCII digits
    `0`-`9` are digits here. */
module Decimal {

  predicate IsDigit(c: char) {
    '0' <= c <= '9'
  }

  /** A non-empty string of digits: what `(\d{1,})` matches in full. */
  predicate IsDecimal(s: string) {
    |s| > 0 && forall i :: 0 <= i < |s| ==> IsDigit(s[i])
  }

  function DigitValue(c: char): nat
    requires IsDigit(c)
  {
    c as int - '0' as int
  }

  function DigitChar(d: nat): (c: char)
    requires d < 10
    ensures IsDigit(c) && DigitValue(c) == d
  {
    ('0' as int + d) as char
  }

  /** `int(s)` for a string of digits; leading zeros are allowed. */
  function Value(s: string): nat
    requires forall i :: 0 <= i < |s| ==> IsDigit(s[i])
    decreases |s|
  {
    if |s| == 0 then 0
    else 10 * Value(s[..|s| - 1]) + DigitValue(s[|s| - 1])
  }

  /** The decimal representation of `n` without leading zeros
      (`str(n)` for a non-negative int). */
  function ToDecimal(n: nat): (r: string)
    ensures IsDecimal(r)
    ensures Value(r) == n
    ensures n > 0 ==> r[0] != '0'
    ensures |r| == 1 <==> n < 10
    decreases n
  {
    if n < 10 then [DigitChar(n)]
    else
      var r := ToDecimal(n / 10) + [DigitChar(n % 10)];
      assert r[..|r| - 1] == ToDecimal(n / 10);
      r
  }

  function Zeros(k: nat): (r: string)
    ensures |r| == k && forall i :: 0 <= i < k ==> r[i] == '0'
  {
    if k == 0 then "" else "0" + Zeros(k - 1)
  }

  /** Leading zeros do not change the value. */
  lemma {:induction false} ValueLeadingZeros(k: nat, s: string)
    requires forall i :: 0 <= i < |s| ==> IsDigit(s[i])
    ensures var z := Zeros(k) + s;
            (forall i :: 0 <= i < |z| ==> IsDigit(z[i])) && Value(z) == Value(s)
    decreases |s|
  {
    var z := Zeros(k) + s;
    if |s| == 0 {
      assert z == Zeros(k);
      ValueOfZeros(k);
    } else {
      assert z[..|z| - 1] == Zeros(k) + s[..|s| - 1];
      ValueLeadingZeros(k, s[..|s| - 1]);
    }
  }

  lemma {:induction false} ValueOfZeros(k: nat)
    ensures Value(Zeros(k)) == 0
    decreases k
  {
    if k > 0 {
      assert Zeros(k)[..k - 1] == Zeros(k - 1) by {
        assert Zeros(k) == Zeros(k - 1) + "0" by {
          ZerosSnoc(k);
        }
      }
      ValueOfZeros(k - 1);
    }
  }

  lemma ZerosSnoc(k: nat)
    requires k > 0
    ensures Zeros(k) == Zeros(k - 1) + "0"
  {
  }

  /** `f"{n:0{width}d}"`: the decimal form of `n`, left-padded with zeros to
      at least `width` characters. */
  function ZeroPadded(n: nat, width: nat): (r: string)
    ensures IsDecimal(r)
    ensures Value(r) == n
    ensures |r| >= width
    ensures |r| > width && |r| > 1 ==> r[0] != '0'
  {
    var d := ToDecimal(n);
    if |d| < width then
      ValueLeadingZeros(width - |d|, d);
      Zeros(width - |d|) + d
    else
      d
  }
}

=== FILE: image_audit.dfy ===
/** The manifest audit: images listed by more than one section, and owners
    whose figures directory does not contain the image they own. */
module ImageAudit {
  import opened Collections
  import opened Manifest
  import opened PathPolicy
  import opened ImageManager

  /** The sections whose list holds `p`. */
  function ListingSections(bySection: map<string, set<string>>, p: string): (r: set<string>)
    ensures forall s :: s in r <==> s in bySection && p in bySection[s]
  {
    set s | s in bySection && p in bySection[s]
  }

  /** `counts[p]`: the number of section lists in which `p` appears. */
  function UseCount(bySection: map<string, set<string>>, p: string): nat {
    |ListingSections(bySection, p)|
  }

  /** Two different sections both list `p`. */
  predicate ListedTwice(bySection: map<string, set<string>>, p: string) {
    exists s, t :: s in bySection && t in bySection && s != t && p in bySection[s] && p in bySection[t]
  }

  /** `multi_used`: the paths whose count exceeds one. */
  function MultiUsed(bySection: map<string, set<string>>): (r: set<string>)
    ensures forall p :: p in r <==> ListedTwice(bySection, p)
  {
    var r := set s, p | s in bySection && p in bySection[s] && UseCount(bySection, p) > 1 :: p;
    forall p
      ensures p in r <==> ListedTwice(bySection, p)
    {
      CountAboveOneIffListedTwice(bySection, p);
    }
    r
  }

  /** A count above one is the same as two distinct listing sections. */
  lemma CountAboveOneIffListedTwice(bySection: map<string, set<string>>, p: string)
    ensures UseCount(bySection, p) > 1 <==> ListedTwice(bySection, p)
  {
    var S := ListingSections(bySection, p);
    if |S| > 1 {
      var s :| s in S;
      var rest := S - {s};
      assert |rest| == |S| - 1;
      var t :| t in rest;
      assert s in bySection && t in bySection && s != t && p in bySection[s] && p in bySection[t];
    }
    if ListedTwice(bySection, p) {
      var s, t :| s in bySection && t in bySection && s != t && p in bySection[s] && p in bySection[t];
      assert {s, t} <= S;
      assert |{s, t}| == 2;
      SubsetCard({s, t}, S);
    }
  }

  lemma SubsetCard(a: set<string>, b: set<string>)
    requires a <= b
    ensures |a| <= |b|
  {
    assert b == a + (b - a);
  }

  /** `wrong_dir`: the (image, owner) pairs of `by_image` where the image is
      outside the owner's figures directory. */
  function WrongDirPairs(byImage: map<string, string>): (r: set<(string, string)>)
    ensures forall p, s :: (p, s) in r <==>
              p in byImage && byImage[p] == s && !InAllowedDir(p, AllowedDirForSection(s))
  {
    set p | p in byImage && !InAllowedDir(p, AllowedDirForSection(byImage[p])) :: (p, byImage[p])
  }

  datatype AuditReport = AuditReport(
    multiUsedImages: set<string>,
    wrongSectionDirPairs: set<(string, string)>,
    ok: bool)

  /** No image is listed by two sections, and every owner's image lies in
      the owner's figures directory. */
  ghost predicate Clean(m: Manifest) {
    && (forall p :: !ListedTwice(m.bySection, p))
    && (forall p :: p in m.byImage ==> InAllowedDir(p, AllowedDirForSection(m.byImage[p])))
  }

  /** The time stamp plays no part in the audit. */
  lemma CleanIgnoresTime(m: Manifest, t: int)
    ensures Clean(m.(updatedAt := t)) == Clean(m)
  {
  }

  /** `audit`: a manifest is ok exactly when no image is listed by two
      sections and every owner's image lies in its directory. */
  function Audit(stored: Stored): (r: AuditReport)
    ensures forall p :: p in r.multiUsedImages <==> ListedTwice(Load(stored).bySection, p)
    ensures r.wrongSectionDirPairs == WrongDirPairs(Load(stored).byImage)
    ensures r.ok <==> Clean(Load(stored))
    ensures !stored.Document? ==> r.ok
  {
    var m := Load(stored);
    var multi := MultiUsed(m.bySection);
    var wrong := WrongDirPairs(m.byImage);
    var r := AuditReport(multi, wrong, multi == {} && wrong == {});
    assert multi != {} ==> exists p :: ListedTwice(m.bySection, p) by {
      if multi != {} {
        var p :| p in multi;
      }
    }
    assert wrong != {} ==> exists p :: p in m.byImage && !InAllowedDir(p, AllowedDirForSection(m.byImage[p])) by {
      if wrong != {} {
        var q :| q in wrong;
      }
    }
    assert (exists p :: p in m.byImage && !InAllowedDir(p, AllowedDirForSection(m.byImage[p]))) ==> wrong != {} by {
      if exists p :: p in m.byImage && !InAllowedDir(p, AllowedDirForSection(m.byImage[p])) {
        var p :| p in m.byImage && !InAllowedDir(p, AllowedDirForSection(m.byImage[p]));
        assert (p, m.byImage[p]) in wrong;
      }
    }
    r
  }

  /** A cross-section conflict in a consistent manifest shows up in the next
      audit: the earlier owner still lists the image and now so does the
      conflicting section. */
  lemma ConflictShowsInAudit(taskId: string, section: string, responseText: string,
                             filtered: seq<string>, stored: Stored, now: int, p: string)
    requires Consistent(Load(stored))
    requires p in PostRunValidateAndRegister(taskId, section, responseText, filtered, stored, now)
                    .violations.crossSectionConflict
    ensures p in Audit(PostRunValidateAndRegister(taskId, section, responseText, filtered, stored, now).saved)
                    .multiUsedImages
  {
    var m := Load(stored);
    var r := PostRunValidateAndRegister(taskId, section, responseText, filtered, stored, now);
    var after := Load(r.saved);
    var owner := m.byImage[p];
    assert p in Listed(m.bySection, owner);
    assert p in ToSet(r.usedImages);
    assert owner in after.bySection && p in after.bySection[owner];
    assert section in after.bySection && p in after.bySection[section];
    assert ListedTwice(after.bySection, p);
  }

  /** Registration adds no wrong-directory pair beyond the images it reports
      as outside the section's directory. */
  lemma RegisterWrongDirPairs(taskId: string, section: string, responseText: string,
                              filtered: seq<string>, stored: Stored, now: int)
    ensures var r := PostRunValidateAndRegister(taskId, section, responseText, filtered, stored, now);
            forall p, s :: (p, s) in Audit(r.saved).wrongSectionDirPairs ==>
              (p, s) in Audit(stored).wrongSectionDirPairs
              || (s == section && p in r.violations.wrongSectionDir)
  {
  }

  /** Starting from a clean, consistent manifest, a section written without
      cross-section conflicts or wrong-directory images keeps the audit
      clean. */
  lemma CleanAuditPreserved(taskId: string, section: string, responseText: string,
                            filtered: seq<string>, stored: Stored, now: int)
    requires Audit(stored).ok && Consistent(Load(stored))
    ensures var r := PostRunValidateAndRegister(taskId, section, responseText, filtered, stored, now);
            r.violations.crossSectionConflict == [] && r.violations.wrongSectionDir == []
            ==> Audit(r.saved).ok
  {
    var r := PostRunValidateAndRegister(taskId, section, responseText, filtered, stored, now);
    var used := ToSet(r.usedImages);
    if r.violations.crossSectionConflict == [] && r.violations.wrongSectionDir == [] {
      forall p | p in used
        ensures !Conflicts(Load(stored).byImage, p, section)
        ensures InAllowedDir(p, AllowedDirForSection(section))
      {
        assert p !in r.violations.crossSectionConflict;
        assert p !in r.violations.wrongSectionDir;
      }
      RegisterKeepsClean(Load(stored), section, used);
      CleanIgnoresTime(Register(Load(stored), section, used), now);
    }
  }

  /** Registering images that conflict with no owner and lie in the
      section's directory keeps a clean, consistent manifest clean. */
  lemma {:induction false} RegisterKeepsClean(m: Manifest, section: string, used: set<string>)
    requires Clean(m) && Consistent(m)
    requires forall p :: p in used ==> !Conflicts(m.byImage, p, section)
    requires forall p :: p in used ==> InAllowedDir(p, AllowedDirForSection(section))
    ensures Clean(Register(m, section, used))
  {
    var after := Register(m, section, used);
    forall p | p in after.byImage
      ensures InAllowedDir(p, AllowedDirForSection(after.byImage[p]))
    {
      if p !in used {
        assert after.byImage[p] == m.byImage[p];
      }
    }
    forall p | p in m.byImage
      ensures m.byImage[p] != ""
    {
      UnnamedSectionHasNoDirectory(p);
    }
    forall p
      ensures !ListedTwice(after.bySection, p)
    {
      NoNewMultiUse(m, section, used, p);
    }
  }

  /** The multi-use half of `CleanAuditPreserved`, for one image. */
  lemma NoNewMultiUse(m: Manifest, section: string, used: set<string>, p: string)
    requires Consistent(m)
    requires forall q :: !ListedTwice(m.bySection, q)
    requires forall q :: q in m.byImage ==> m.byImage[q] != ""
    requires forall q :: q in used ==> !Conflicts(m.byImage, q, section)
    ensures !ListedTwice(Register(m, section, used).bySection, p)
  {
    var after := Register(m, section, used).bySection;
    var now := ListingSections(after, p);
    if p in used {
      OnlyOwnerListsUsed(m, section, used, p);
      assert now <= {section};
      SubsetCard(now, {section});
    } else {
      assert now == ListingSections(m.bySection, p);
      CountAboveOneIffListedTwice(m.bySection, p);
    }
    CountAboveOneIffListedTwice(after, p);
  }

  /** In a clean, consistent manifest an image the section may register
      without conflict is listed by no other section. */
  lemma OnlyOwnerListsUsed(m: Manifest, section: string, used: set<string>, p: string)
    requires Consistent(m)
    requires !ListedTwice(m.bySection, p)
    requires p in m.byImage ==> m.byImage[p] != ""
    requires p in used && !Conflicts(m.byImage, p, section)
    ensures forall t :: t in m.bySection && p in m.bySection[t] ==> t == section
  {
    if p in m.byImage {
      assert m.byImage[p] == section;
      assert p in Listed(m.bySection, section);
    }
  }

  /** Two sections listing the same image make the audit fail and name the
      image. */
  lemma SharedImageReported(image: string, s: string, t: string)
    requires s != t
    ensures var stored := Document(Some(map[]), Some(map[s := {image}, t := {image}]), 0);
            image in Audit(stored).multiUsedImages && !Audit(stored).ok
  {
    var bySection := map[s := {image}, t := {image}];
    assert s in bySection && t in bySection && image in bySection[s] && image in bySection[t];
    assert ListedTwice(bySection, image);
  }
}

=== FILE: image_manager.dfy ===
/** The writer's per-task image manager: before a section is written it
    narrows the candidate images to those in the section's own figures
    directory that no section has claimed yet; after the section is written it
    finds the images the text uses, reports violations and records the claims
    in the manifest; `Audit` re-checks a manifest on its own. */
module ImageManager {
  import opened Collections
  import opened Text
  import opened LexOrder
  import opened PathPolicy
  import opened MarkdownImages
  import opened Manifest
  import CommonUtils

  // ---------------------------------------------------------------------
  // Before writing: the filtered candidate list

  /** Candidates found by listing the section's figures directory: each image
      name put under the directory. `listing` is `None` when the directory
      does not exist. */
  function DiscoveredImages(allowedDir: string, listing: Option<seq<string>>): (r: seq<string>)
    ensures allowedDir == "" || listing.None? ==> r == []
    ensures forall p :: p in r ==> StartsWith(p, allowedDir)
    ensures listing.Some? && allowedDir != "" ==>
              var names := CommonUtils.GetCurrentFiles(listing.value, "image").value;
              |r| == |names| && forall i :: 0 <= i < |r| ==> r[i] == allowedDir + names[i]
  {
    if allowedDir == "" then []
    else match listing
      case None => []
      case Some(entries) =>
        var names := CommonUtils.GetCurrentFiles(entries, "image").GetOr([]);
        var r := seq(|names|, i requires 0 <= i < |names| => allowedDir + names[i]);
        assert forall i :: 0 <= i < |r| ==> r[i][..|allowedDir|] == allowedDir;
        r
  }

  /** The candidates the filter starts from: those passed in, or the
      discovered ones when none were passed. */
  function Offered(section: string, available: seq<string>, listing: Option<seq<string>>): seq<string> {
    if |available| == 0 then DiscoveredImages(AllowedDirForSection(section), listing)
    else available
  }

  /** An offered path that is not blank once normalised. */
  predicate NonBlank(p: string) {
    Norm(p) != ""
  }

  /** `candidates_all`: every offered path that is not blank, normalised and
      with its task prefix removed, in the offered order. */
  function CandidatePaths(taskId: string, offered: seq<string>): (r: seq<string>)
    ensures |r| <= |offered|
    ensures var kept := Filter(NonBlank, offered);
            |r| == |kept| && forall i :: 0 <= i < |r| ==> r[i] == StripTaskPrefix(taskId, kept[i])
    ensures forall q :: q in r <==>
              exists p :: p in offered && NonBlank(p) && q == StripTaskPrefix(taskId, p)
  {
    var kept := Filter(NonBlank, offered);
    var r := seq(|kept|, i requires 0 <= i < |kept| => StripTaskPrefix(taskId, kept[i]));
    CandidateMembers(taskId, offered, kept, r);
    r
  }

  lemma CandidateMembers(taskId: string, offered: seq<string>, kept: seq<string>, r: seq<string>)
    requires forall p :: p in kept <==> p in offered && NonBlank(p)
    requires |r| == |kept| && forall i :: 0 <= i < |r| ==> r[i] == StripTaskPrefix(taskId, kept[i])
    ensures forall q :: q in r <==>
              exists p :: p in offered && NonBlank(p) && q == StripTaskPrefix(taskId, p)
  {
    forall q | q in r
      ensures exists p :: p in offered && NonBlank(p) && q == StripTaskPrefix(taskId, p)
    {
      var i :| 0 <= i < |r| && r[i] == q;
      assert kept[i] in kept;
    }
    forall p | p in offered && NonBlank(p)
      ensures StripTaskPrefix(taskId, p) in r
    {
      var i :| 0 <= i < |kept| && kept[i] == p;
      assert r[i] == StripTaskPrefix(taskId, p);
    }
  }

  /** The section's own, still unclaimed candidates. */
  predicate Admissible(p: string, allowedDir: string, byImage: map<string, string>) {
    InAllowedDir(p, allowedDir) && p !in byImage
  }

  datatype Prepared = Prepared(prompt: string, filtered: seq<string>)

  /** `pre_run_prepare_prompt`: the prompt comes back unchanged; the filtered
      list keeps, in order, the candidates inside the section's directory
      that are not yet a key of `by_image` (a claim by any section, this one
      included, excludes an image). */
  function PreRunPreparePrompt(taskId: string, section: string, basePrompt: string,
                               available: seq<string>, listing: Option<seq<string>>,
                               stored: Stored): (r: Prepared)
    ensures r.prompt == basePrompt
    ensures IsSubsequence(r.filtered, CandidatePaths(taskId, Offered(section, available, listing)))
    ensures forall p :: p in r.filtered <==>
              p in CandidatePaths(taskId, Offered(section, available, listing))
              && Admissible(p, AllowedDirForSection(section), Load(stored).byImage)
    ensures forall p :: multiset(r.filtered)[p] ==
              if Admissible(p, AllowedDirForSection(section), Load(stored).byImage)
              then multiset(CandidatePaths(taskId, Offered(section, available, listing)))[p]
              else 0
    ensures AllowedDirForSection(section) == "" ==> r.filtered == []
  {
    var allowedDir := AllowedDirForSection(section);
    var filtered := Unclaimed(allowedDir, Load(stored).byImage,
                              CandidatePaths(taskId, Offered(section, available, listing)));
    var r := Prepared(basePrompt, filtered);
    if allowedDir == "" then NoMembersEmpty(filtered); r else r
  }

  /** The candidates inside `allowedDir` that `byImage` does not hold, in
      order and with their repeats. */
  function Unclaimed(allowedDir: string, byImage: map<string, string>, all: seq<string>): (r: seq<string>)
    ensures IsSubsequence(r, all)
    ensures forall p :: p in r <==> p in all && Admissible(p, allowedDir, byImage)
    ensures forall p :: multiset(r)[p] == if Admissible(p, allowedDir, byImage) then multiset(all)[p] else 0
  {
    FilterCount(p => Admissible(p, allowedDir, byImage), all);
    Filter(p => Admissible(p, allowedDir, byImage), all)
  }

  /** The source filters in two passes, by directory and then by `by_image`;
      one pass with both conditions keeps the same list. */
  lemma TwoPassFilter(allowedDir: string, byImage: map<string, string>, all: seq<string>)
    ensures Filter(p => p !in byImage, Filter(p => InAllowedDir(p, allowedDir), all))
            == Unclaimed(allowedDir, byImage, all)
  {
    FilterFilter(p => InAllowedDir(p, allowedDir), p => p !in byImage,
                 p => Admissible(p, allowedDir, byImage), all);
  }

  // ---------------------------------------------------------------------
  // After writing: used images and violations

  /** `allowed_set`: the normalised filtered list handed back by the caller. */
  function Pool(filtered: seq<string>): (r: seq<string>)
    ensures |r| == |filtered|
    ensures forall i :: 0 <= i < |r| ==> r[i] == Norm(filtered[i])
  {
    seq(|filtered|, i requires 0 <= i < |filtered| => Norm(filtered[i]))
  }

  /** `md_paths`: the markdown image targets of the text, each normalised and
      with its task prefix removed. */
  function MarkdownPaths(taskId: string, content: string): (r: seq<string>)
    ensures forall p :: p in r <==> exists t :: t in Targets(content) && p == StripTaskPrefix(taskId, t)
  {
    var ts := Targets(content);
    var r := seq(|ts|, i requires 0 <= i < |ts| => StripTaskPrefix(taskId, ts[i]));
    assert forall t :: t in ts ==> StripTaskPrefix(taskId, t) in r by {
      forall t | t in ts
        ensures StripTaskPrefix(taskId, t) in r
      {
        var i :| 0 <= i < |ts| && ts[i] == t;
        assert r[i] == StripTaskPrefix(taskId, t);
      }
    }
    r
  }

  /** A pool path counts as used when it is a markdown image target or, being
      non-empty, occurs anywhere in the text. */
  predicate Referenced(taskId: string, content: string, p: string) {
    p in MarkdownPaths(taskId, content) || (p != "" && Contains(content, p))
  }

  /** `used_images`: the pool paths the text references, sorted and without
      duplicates. */
  function UsedImages(taskId: string, content: string, filtered: seq<string>): (r: seq<string>)
    ensures StrictlySorted(r)
    ensures forall p :: p in r <==> p in Pool(filtered) && Referenced(taskId, content, p)
  {
    SortUnique(Filter(p => Referenced(taskId, content, p), Pool(filtered)))
  }

  /** `not_in_allowed`: markdown image targets outside the pool. */
  function NotInAllowed(taskId: string, content: string, filtered: seq<string>): (r: seq<string>)
    ensures StrictlySorted(r)
    ensures forall p :: p in r <==> p in MarkdownPaths(taskId, content) && p !in Pool(filtered)
  {
    var pool := Pool(filtered);
    SortUnique(Filter(p => p !in pool, MarkdownPaths(taskId, content)))
  }

  /** `duplicate_within_section`: used paths whose text occurs at least twice
      (counted as non-overlapping literal matches). */
  function DuplicateWithinSection(content: string, used: seq<string>): (r: seq<string>)
    ensures StrictlySorted(r)
    ensures forall p :: p in r <==> p in used && CountOccurrences(p, content) >= 2
  {
    SortUnique(Filter(p => CountOccurrences(p, content) > 1, used))
  }

  /** `wrong_section_dir`: used paths outside the section's directory. */
  function WrongSectionDir(section: string, used: seq<string>): (r: seq<string>)
    ensures StrictlySorted(r)
    ensures forall p :: p in r <==> p in used && !InAllowedDir(p, AllowedDirForSection(section))
  {
    var allowedDir := AllowedDirForSection(section);
    SortUnique(Filter(p => !InAllowedDir(p, allowedDir), used))
  }

  /** `p` is already owned by a different section (an empty owner does not
      count as an owner). */
  predicate Conflicts(byImage: map<string, string>, p: string, section: string) {
    p in byImage && byImage[p] != "" && byImage[p] != section
  }

  /** `cross_section_conflict`: used paths owned by another section. */
  function CrossSectionConflict(byImage: map<string, string>, section: string, used: seq<string>): (r: seq<string>)
    ensures StrictlySorted(r)
    ensures forall p :: p in r <==> p in used && Conflicts(byImage, p, section)
  {
    SortUnique(Filter(p => Conflicts(byImage, p, section), used))
  }

  function ToSet(s: seq<string>): (r: set<string>)
    ensures forall p :: p in r <==> p in s
  {
    set p | p in s
  }

  // ---------------------------------------------------------------------
  // Registration

  /** The manifest update: each used path without a conflicting owner is
      claimed by `section`, a conflicting owner is left in place, and every
      used path, conflicting or not, joins the section's list. */
  function Register(m: Manifest, section: string, used: set<string>): (r: Manifest)
    ensures r.byImage.Keys == m.byImage.Keys + used
    ensures forall p :: p in used && !Conflicts(m.byImage, p, section) ==> r.byImage[p] == section
    ensures forall p :: p in used && Conflicts(m.byImage, p, section) ==> r.byImage[p] == m.byImage[p]
    ensures forall p :: p in m.byImage && p !in used ==> r.byImage[p] == m.byImage[p]
    ensures r.bySection.Keys == m.bySection.Keys + {section}
    ensures r.bySection[section] == Listed(m.bySection, section) + used
    ensures forall s :: s in m.bySection && s != section ==> r.bySection[s] == m.bySection[s]
    ensures r.updatedAt == m.updatedAt
  {
    var byImage := map p | p in m.byImage.Keys + used ::
      if p in used && !Conflicts(m.byImage, p, section) then section else m.byImage[p];
    var bySection := m.bySection[section := Listed(m.bySection, section) + used];
    Manifest(byImage, bySection, m.updatedAt)
  }

  datatype Violations = Violations(
    notInAllowed: seq<string>,
    duplicateWithinSection: seq<string>,
    crossSectionConflict: seq<string>,
    wrongSectionDir: seq<string>)

  /** The result of the post-writing step; `saved` is the manifest file as
      written back. */
  datatype Validation = Validation(usedImages: seq<string>, violations: Violations, saved: Stored)

  /** `post_run_validate_and_register`: violations are reported and never
      block the registration, which is saved with the time `now`. */
  function PostRunValidateAndRegister(taskId: string, section: string, responseText: string,
                                      filtered: seq<string>, stored: Stored, now: int): (r: Validation)
    ensures StrictlySorted(r.usedImages)
    ensures forall p :: p in r.usedImages <==> p in Pool(filtered) && Referenced(taskId, responseText, p)
    ensures StrictlySorted(r.violations.notInAllowed) && StrictlySorted(r.violations.duplicateWithinSection)
    ensures StrictlySorted(r.violations.crossSectionConflict) && StrictlySorted(r.violations.wrongSectionDir)
    ensures forall p :: p in r.violations.crossSectionConflict <==>
              p in r.usedImages && Conflicts(Load(stored).byImage, p, section)
    ensures forall p :: p in r.violations.wrongSectionDir <==>
              p in r.usedImages && !InAllowedDir(p, AllowedDirForSection(section))
    ensures forall p :: p in r.violations.duplicateWithinSection <==>
              p in r.usedImages && CountOccurrences(p, responseText) >= 2
    ensures forall p :: p in r.violations.notInAllowed <==>
              p in MarkdownPaths(taskId, responseText) && p !in Pool(filtered)
    ensures Load(r.saved) == Register(Load(stored), section, ToSet(r.usedImages)).(updatedAt := now)
  {
    var m := Load(stored);
    var used := UsedImages(taskId, responseText, filtered);
    var violations := Violations(
      NotInAllowed(taskId, responseText, filtered),
      DuplicateWithinSection(responseText, used),
      CrossSectionConflict(m.byImage, section, used),
      WrongSectionDir(section, used));
    var saved := Save(Register(m, section, ToSet(used)), now);
    SaveLoadRoundTrip(Register(m, section, ToSet(used)), now);
    Validation(used, violations, saved)
  }

  // ---------------------------------------------------------------------
  // Properties of the two steps

  /** A list prepared for `section` never yields a wrong-directory violation
      when it is handed back after writing that same section. */
  lemma PreparedListStaysInDirectory(taskId: string, section: string, basePrompt: string,
                                     available: seq<string>, listing: Option<seq<string>>,
                                     stored: Stored, responseText: string, stored2: Stored, now: int)
    ensures var filtered := PreRunPreparePrompt(taskId, section, basePrompt, available, listing, stored).filtered;
            PostRunValidateAndRegister(taskId, section, responseText, filtered, stored2, now)
              .violations.wrongSectionDir == []
  {
    var filtered := PreRunPreparePrompt(taskId, section, basePrompt, available, listing, stored).filtered;
    var r := PostRunValidateAndRegister(taskId, section, responseText, filtered, stored2, now);
    var dir := AllowedDirForSection(section);
    forall p | p in Pool(filtered)
      ensures InAllowedDir(p, dir)
    {
      var i :| 0 <= i < |Pool(filtered)| && Pool(filtered)[i] == p;
      assert filtered[i] in filtered;
      InAllowedDirNorm(filtered[i], dir);
    }
    NoMembersEmpty(r.violations.wrongSectionDir);
  }

  /** An image offered for a section lies in no other section's figures
      directory. */
  lemma OfferedOnlyFromOwnDirectory(taskId: string, section: string, basePrompt: string,
                                    available: seq<string>, listing: Option<seq<string>>,
                                    stored: Stored, p: string, other: string)
    requires p in PreRunPreparePrompt(taskId, section, basePrompt, available, listing, stored).filtered
    requires IsSectionName(other) && StartsWith(Norm(p), AllowedDirForName(other))
    ensures other == SectionKey(section)
  {
    AllowedDirIsNormal(section);
    SectionDirectoriesDisjoint(SectionKey(section), other, Norm(p));
  }

  /** Once an image is registered, no later preparation for any section
      offers it again. */
  lemma RegisteredImagesNotOfferedAgain(taskId: string, section: string, responseText: string,
                                        filtered: seq<string>, stored: Stored, now: int,
                                        section2: string, basePrompt: string,
                                        available: seq<string>, listing: Option<seq<string>>, p: string)
    requires p in PostRunValidateAndRegister(taskId, section, responseText, filtered, stored, now).usedImages
    ensures var saved := PostRunValidateAndRegister(taskId, section, responseText, filtered, stored, now).saved;
            p !in PreRunPreparePrompt(taskId, section2, basePrompt, available, listing, saved).filtered
  {
  }

  /** Registering the same images for the same section twice changes nothing
      the second time. */
  lemma {:induction false} RegisterIdempotent(m: Manifest, section: string, used: set<string>)
    ensures Register(Register(m, section, used), section, used) == Register(m, section, used)
  {
    var once := Register(m, section, used);
    var twice := Register(once, section, used);
    forall p | p in used
      ensures twice.byImage[p] == once.byImage[p]
    {
      if Conflicts(m.byImage, p, section) {
        assert Conflicts(once.byImage, p, section);
      } else {
        assert !Conflicts(once.byImage, p, section);
      }
    }
    assert twice.byImage == once.byImage;
    assert twice.bySection == once.bySection;
  }

  /** Validating and registering the same response twice leaves the same
      manifest as doing it once, apart from the time stamp. */
  lemma {:induction false} PostRunIdempotent(taskId: string, section: string, responseText: string,
                                             filtered: seq<string>, stored: Stored, now: int, later: int)
    ensures var first := PostRunValidateAndRegister(taskId, section, responseText, filtered, stored, now);
            var second := PostRunValidateAndRegister(taskId, section, responseText, filtered, first.saved, later);
            second.usedImages == first.usedImages
            && Load(second.saved) == Load(first.saved).(updatedAt := later)
  {
    var first := PostRunValidateAndRegister(taskId, section, responseText, filtered, stored, now);
    var second := PostRunValidateAndRegister(taskId, section, responseText, filtered, first.saved, later);
    var used := ToSet(first.usedImages);
    var m := Load(stored);
    assert second.usedImages == first.usedImages;
    assert Load(first.saved) == Register(m, section, used).(updatedAt := now);
    RegisterIdempotent(m, section, used);
    assert Register(Load(first.saved), section, used) == Register(Register(m, section, used), section, used).(updatedAt := now);
  }

  /** The two maps agree: every owner recorded in `by_image` lists the image
      in `by_section`, and every listed image has an entry in `by_image`. */
  predicate Consistent(m: Manifest) {
    && (forall p :: p in m.byImage && m.byImage[p] != "" ==> p in Listed(m.bySection, m.byImage[p]))
    && (forall s, p :: s in m.bySection && p in m.bySection[s] ==> p in m.byImage)
  }

  /** Registration keeps the two maps consistent. */
  lemma {:induction false} RegisterKeepsConsistent(m: Manifest, section: string, used: set<string>)
    requires Consistent(m)
    ensures Consistent(Register(m, section, used))
  {
    var r := Register(m, section, used);
    forall p | p in r.byImage && r.byImage[p] != ""
      ensures p in Listed(r.bySection, r.byImage[p])
    {
      if p in used && !Conflicts(m.byImage, p, section) {
        assert r.byImage[p] == section;
      } else {
        assert r.byImage[p] == m.byImage[p];
        assert p in Listed(m.bySection, m.byImage[p]);
      }
    }
    forall s, p | s in r.bySection && p in r.bySection[s]
      ensures p in r.byImage
    {
      if s != section {
        assert p in m.bySection[s];
      } else if p !in used {
        assert p in Listed(m.bySection, section);
      }
    }
  }
}

=== FILE: lex_order.dfy ===
/** Python's ordering of `str` values (code point by code point, a proper
    prefix first) and `sorted(set(xs))`: the distinct elements of a list in
    ascending order. */
module LexOrder {
  import opened Collections

  /** `a < b` on Python strings. */
  predicate Less(a: string, b: string)
    decreases |a|
  {
    if |a| == 0 then |b| > 0
    else if |b| == 0 then false
    else if a[0] == b[0] then Less(a[1..], b[1..])
    else a[0] < b[0]
  }

  lemma {:induction false} LessIrreflexive(a: string)
    ensures !Less(a, a)
    decreases |a|
  {
    if |a| > 0 {
      LessIrreflexive(a[1..]);
    }
  }

  lemma {:induction false} LessTransitive(a: string, b: string, c: string)
    requires Less(a, b) && Less(b, c)
    ensures Less(a, c)
    decreases |a|
  {
    if |a| > 0 && a[0] == b[0] && b[0] == c[0] {
      LessTransitive(a[1..], b[1..], c[1..]);
    }
  }

  /** Any two different strings are ordered one way or the other. */
  lemma {:induction false} LessTotal(a: string, b: string)
    requires a != b
    ensures Less(a, b) || Less(b, a)
    decreases |a|
  {
    if |a| > 0 && |b| > 0 && a[0] == b[0] {
      assert a == [a[0]] + a[1..] && b == [b[0]] + b[1..];
      LessTotal(a[1..], b[1..]);
    }
  }

  lemma LessAsymmetric(a: string, b: string)
    requires Less(a, b)
    ensures !Less(b, a)
  {
    if Less(b, a) {
      LessTransitive(a, b, a);
      LessIrreflexive(a);
    }
  }

  /** Strictly ascending, hence free of duplicates. */
  predicate StrictlySorted(s: seq<string>) {
    forall i, j :: 0 <= i < j < |s| ==> Less(s[i], s[j])
  }

  lemma StrictlySortedDistinct(s: seq<string>, i: int, j: int)
    requires StrictlySorted(s)
    requires 0 <= i < |s| && 0 <= j < |s| && i != j
    ensures s[i] != s[j]
  {
    if i < j {
      LessIrreflexive(s[i]);
    } else {
      LessIrreflexive(s[j]);
    }
  }

  /** Adds `x` at its place in an ascending list, unless it is already there. */
  function Insert(x: string, s: seq<string>): (r: seq<string>)
    requires StrictlySorted(s)
    ensures StrictlySorted(r)
    ensures forall y :: y in r <==> y == x || y in s
    ensures |r| <= |s| + 1
    decreases |s|
  {
    if |s| == 0 then [x]
    else if x == s[0] then s
    else if Less(x, s[0]) then
      assert forall k :: 0 < k < |s| ==> Less(x, s[k]) by {
        forall k | 0 < k < |s| {
          LessTransitive(x, s[0], s[k]);
        }
      }
      [x] + s
    else
      LessTotal(x, s[0]);
      var t := Insert(x, s[1..]);
      assert forall y :: y in t ==> Less(s[0], y) by {
        forall y | y in t
          ensures Less(s[0], y)
        {
          if y != x {
            var k :| 0 <= k < |s[1..]| && s[1..][k] == y;
            assert s[k + 1] == y;
          }
        }
      }
      [s[0]] + t
  }

  /** `sorted(set(xs))`: the distinct elements of `xs`, ascending. */
  function SortUnique(xs: seq<string>): (r: seq<string>)
    ensures StrictlySorted(r)
    ensures forall y :: y in r <==> y in xs
    ensures |r| <= |xs|
    decreases |xs|
  {
    if |xs| == 0 then []
    else
      var t := SortUnique(xs[..|xs| - 1]);
      assert xs == xs[..|xs| - 1] + [xs[|xs| - 1]];
      Insert(xs[|xs| - 1], t)
  }

  /** The head of an ascending list is its least element. */
  lemma HeadIsLeast(a: seq<string>, y: string)
    requires StrictlySorted(a) && y in a
    ensures a[0] == y || Less(a[0], y)
  {
  }

  lemma LessOrEqualAntisymmetric(x: string, y: string)
    ensures (x == y || Less(x, y)) && (y == x || Less(y, x)) ==> x == y
  {
    if Less(x, y) {
      LessAsymmetric(x, y);
    }
  }

  /** Two ascending duplicate-free lists with the same elements are equal:
      `SortUnique` is the one such arrangement. */
  lemma {:induction false} SortedUnique(a: seq<string>, b: seq<string>)
    requires StrictlySorted(a) && StrictlySorted(b)
    requires forall y :: y in a <==> y in b
    ensures a == b
    decreases |a|
  {
    if |a| > 0 {
      assert a[0] in b;
      assert b[0] in a;
      HeadIsLeast(a, b[0]);
      HeadIsLeast(b, a[0]);
      LessOrEqualAntisymmetric(a[0], b[0]);
      forall y | y in a[1..]
        ensures y in b[1..]
      {
        var k :| 1 <= k < |a| && a[k] == y;
        StrictlySortedDistinct(a, 0, k);
        assert y in b;
        var j :| 0 <= j < |b| && b[j] == y;
        assert b[1..][j - 1] == y;
      }
      forall y | y in b[1..]
        ensures y in a[1..]
      {
        var k :| 1 <= k < |b| && b[k] == y;
        StrictlySortedDistinct(b, 0, k);
        assert y in a;
        var j :| 0 <= j < |a| && a[j] == y;
        assert a[1..][j - 1] == y;
      }
      SortedUnique(a[1..], b[1..]);
    } else {
      if |b| > 0 {
        HeadIsMember(b);
      }
    }
  }
}

=== FILE: manifest.dfy ===
/** The per-task image manifest (`res_used_image.json`) as a value: which
    section owns each image, which images each section has used, and when it
    was last written. Reading and writing the file become functions from and
    to a stored value. */
module Manifest {
  import opened Collections

  /** The manifest after loading: `by_image` maps an image path to its owning
      section; `by_section` maps a section to the paths it has used (the file
      keeps them as a sorted list without duplicates). */
  datatype Manifest = Manifest(
    byImage: map<string, string>,
    bySection: map<string, set<string>>,
    updatedAt: int)

  /** What `_load_manifest` returns when there is nothing usable. */
  const Empty := Manifest(map[], map[], 0)

  /** The manifest file as found: absent, unreadable or not valid JSON, or a
      JSON object whose `by_image` and `by_section` keys may be missing. */
  datatype Stored =
    | Missing
    | Unreadable
    | Document(byImage: Option<map<string, string>>,
               bySection: Option<map<string, set<string>>>,
               updatedAt: int)

  /** `_load_manifest` followed by the `.get(key, {})` lookups of its callers:
      a missing or unreadable file reads as the empty manifest, and a missing
      key as an empty map. */
  function Load(stored: Stored): (m: Manifest)
    ensures !stored.Document? ==> m == Empty
    ensures stored.Document? ==> m.updatedAt == stored.updatedAt
    ensures stored.Document? && stored.byImage.Some? ==> m.byImage == stored.byImage.value
    ensures stored.Document? && stored.byImage.None? ==> m.byImage == map[]
    ensures stored.Document? && stored.bySection.Some? ==> m.bySection == stored.bySection.value
    ensures stored.Document? && stored.bySection.None? ==> m.bySection == map[]
  {
    match stored
    case Document(bi, bs, t) => Manifest(bi.GetOr(map[]), bs.GetOr(map[]), t)
    case _ => Empty
  }

  /** `_save_manifest`: the manifest with its timestamp set to `now`, as it
      is written to the file. */
  function Save(m: Manifest, now: int): (stored: Stored)
    ensures stored.Document? && stored.updatedAt == now
  {
    Document(Some(m.byImage), Some(m.bySection), now)
  }

  /** Loading what was saved gives back the manifest with the new time. */
  lemma SaveLoadRoundTrip(m: Manifest, now: int)
    ensures Load(Save(m, now)) == m.(updatedAt := now)
  {
  }

  /** The paths listed under section `s`, empty when `s` has no entry. */
  function Listed(bySection: map<string, set<string>>, s: string): set<string> {
    if s in bySection then bySection[s] else {}
  }
}

=== FILE: markdown_images.dfy ===
/** The image manager's markdown scanner: `re.findall` with the pattern
    `!\[[^\]]*\]\(([^)]+)\)`, written as a deterministic left-to-right scan.

    At a position holding `![`, the alternative text runs to the first `]`
    (it cannot contain one), which must be followed by `(`; the target runs to
    the first `)` and must be non-empty. No backtracking can produce another
    match at the same position, so a failed attempt moves on by one character
    and a match moves past its closing `)`. */
module MarkdownImages {
  import opened Collections
  import opened Text

  /** The target of an image reference starting at `s[0]` and the length of
      the whole reference, or `None` when none starts there. */
  function MatchAt(s: string): (r: Option<(string, nat)>)
    ensures r.Some? ==> 0 < r.value.1 <= |s|
    ensures r.Some? ==> |r.value.0| > 0 && ')' !in r.value.0
    ensures r.Some? ==> exists alt :: WellFormed(alt, r.value.0) && s[..r.value.1] == Image(alt, r.value.0)
  {
    if |s| < 2 || s[0] != '!' || s[1] != '[' then None
    else match IndexOf(s, ']', 2)
      case None => None
      case Some(j) =>
        if j + 1 >= |s| || s[j + 1] != '(' then None
        else match IndexOf(s, ')', j + 2)
          case None => None
          case Some(k) =>
            if k == j + 2 then None
            else
              ReferenceAtFront(s, j, k);
              Some((s[j + 2..k], k + 1))
  }

  /** The text up to the first `)` after `](` is the reference rebuilt from
      its alternative text and target. */
  lemma ReferenceAtFront(s: string, j: nat, k: nat)
    requires 2 <= j && j + 2 < k < |s|
    requires s[0] == '!' && s[1] == '[' && s[j] == ']' && s[j + 1] == '(' && s[k] == ')'
    requires forall i :: 2 <= i < j ==> s[i] != ']'
    requires forall i :: j + 2 <= i < k ==> s[i] != ')'
    ensures WellFormed(s[2..j], s[j + 2..k]) && s[..k + 1] == Image(s[2..j], s[j + 2..k])
  {
    var alt := s[2..j];
    var target := s[j + 2..k];
    var img := Image(alt, target);
    assert |img| == k + 1;
    forall i | 0 <= i < k + 1
      ensures s[..k + 1][i] == img[i]
    {
      if 2 <= i < j {
        assert img[i] == alt[i - 2];
      } else if j + 2 <= i < k {
        assert img[i] == target[i - j - 2];
      }
    }
  }

  /** Every image target of `s`, in order of appearance (`findall`'s list). */
  function Targets(s: string): (r: seq<string>)
    ensures forall t :: t in r ==> |t| > 0 && ')' !in t
    decreases |s|
  {
    if |s| == 0 then []
    else match MatchAt(s)
      case Some(m) => [m.0] + Targets(s[m.1..])
      case None => Targets(s[1..])
  }

  /** A well-formed reference: alternative text without `]`, a non-empty
      target without `)`. */
  predicate WellFormed(alt: string, target: string) {
    ']' !in alt && |target| > 0 && ')' !in target
  }

  /** The markdown text `![alt](target)`. */
  function Image(alt: string, target: string): string {
    "![" + alt + "](" + target + ")"
  }

  /** A reference at the front is found, with its exact target, and the scan
      resumes right after it. */
  lemma ImageFirst(alt: string, target: string, rest: string)
    requires WellFormed(alt, target)
    ensures Targets(Image(alt, target) + rest) == [target] + Targets(rest)
  {
    var img := Image(alt, target);
    var s := img + rest;
    var j := 2 + |alt|;
    var k := j + 2 + |target|;
    assert s[j] == ']' && s[j + 1] == '(' && s[k] == ')';
    assert forall i :: 2 <= i < j ==> s[i] == alt[i - 2];
    assert forall i :: j + 2 <= i < k ==> s[i] == target[i - j - 2];
    assert IndexOf(s, ']', 2) == Some(j);
    assert IndexOf(s, ')', j + 2) == Some(k);
    assert s[j + 2..k] == target;
    assert MatchAt(s) == Some((target, k + 1));
    assert s[k + 1..] == rest;
  }

  /** Text at none of whose positions a reference starts contributes no
      target: the scan moves over it one character at a time, whatever
      follows it. */
  lemma {:induction false} NoMatchSkipped(plain: string, rest: string)
    requires forall i :: 0 <= i < |plain| ==> MatchAt((plain + rest)[i..]).None?
    ensures Targets(plain + rest) == Targets(rest)
    decreases |plain|
  {
    if |plain| > 0 {
      var s := plain + rest;
      assert MatchAt(s[0..]).None?;
      assert s[0..] == s;
      assert s[1..] == plain[1..] + rest;
      forall i | 0 <= i < |plain[1..]|
        ensures MatchAt((plain[1..] + rest)[i..]).None?
      {
        assert (plain[1..] + rest)[i..] == s[i + 1..];
      }
      NoMatchSkipped(plain[1..], rest);
    } else {
      assert plain + rest == rest;
    }
  }

  /** Text without `!` contributes no reference. */
  lemma PlainTextSkipped(plain: string, rest: string)
    requires '!' !in plain
    ensures Targets(plain + rest) == Targets(rest)
  {
    forall i | 0 <= i < |plain|
      ensures MatchAt((plain + rest)[i..]).None?
    {
      assert (plain + rest)[i..][0] == plain[i];
    }
    NoMatchSkipped(plain, rest);
  }

  /** A `!` not followed by `[` starts no reference. */
  lemma LoneBang(s: string)
    requires |s| >= 2 && s[0] == '!' && s[1] != '['
    ensures MatchAt(s).None?
  {
  }

  /** A doubled `!` does not hide the reference it precedes: `!![x](a.png)`
      yields `a.png`. */
  lemma DoubledBangSkipped(alt: string, target: string, rest: string)
    requires WellFormed(alt, target)
    ensures Targets("!" + (Image(alt, target) + rest)) == [target] + Targets(rest)
  {
    var tail := Image(alt, target) + rest;
    var s := "!" + tail;
    assert s[0..] == s && s[1] == tail[0] == '!';
    LoneBang(s);
    NoMatchSkipped("!", tail);
    ImageFirst(alt, target, rest);
  }

  /** A `!` that ends a word does not hide the reference after it:
      `Note! ![x](a.png)` yields `a.png`. */
  lemma BangSpaceSkipped(plain: string, alt: string, target: string, rest: string)
    requires '!' !in plain && WellFormed(alt, target)
    ensures Targets(plain + ("! " + (Image(alt, target) + rest))) == [target] + Targets(rest)
  {
    var tail := Image(alt, target) + rest;
    var s := "! " + tail;
    assert s[0..] == s && s[1] == ' ';
    LoneBang(s);
    forall i | 0 <= i < 2
      ensures MatchAt(s[i..]).None?
    {
      if i == 1 {
        assert s[1..][0] == ' ';
      }
    }
    NoMatchSkipped("! ", tail);
    ImageFirst(alt, target, rest);
    PlainTextSkipped(plain, s);
  }

  /** Text made of well-formed references, each preceded by text without `!`. */
  datatype Piece = Piece(plain: string, alt: string, target: string)

  function Render(pieces: seq<Piece>): string {
    if |pieces| == 0 then ""
    else pieces[0].plain + Image(pieces[0].alt, pieces[0].target) + Render(pieces[1..])
  }

  function TargetsOf(pieces: seq<Piece>): (r: seq<string>)
    ensures |r| == |pieces| && forall i :: 0 <= i < |r| ==> r[i] == pieces[i].target
  {
    if |pieces| == 0 then [] else [pieces[0].target] + TargetsOf(pieces[1..])
  }

  /** Scanning rendered references returns exactly their targets, in order. */
  lemma {:induction false} RenderRoundTrip(pieces: seq<Piece>)
    requires forall i :: 0 <= i < |pieces| ==>
               '!' !in pieces[i].plain && WellFormed(pieces[i].alt, pieces[i].target)
    ensures Targets(Render(pieces)) == TargetsOf(pieces)
    decreases |pieces|
  {
    if |pieces| > 0 {
      var p := pieces[0];
      var tail := Render(pieces[1..]);
      assert Render(pieces) == p.plain + (Image(p.alt, p.target) + tail);
      PlainTextSkipped(p.plain, Image(p.alt, p.target) + tail);
      ImageFirst(p.alt, p.target, tail);
      RenderRoundTrip(pieces[1..]);
    }
  }

  /** `![alt]()` is not a reference: the target must be non-empty. */
  lemma EmptyTargetRejected(alt: string, rest: string)
    requires ']' !in alt
    ensures MatchAt("![" + alt + "]()" + rest) == None
  {
    var s := "![" + alt + "]()" + rest;
    var j := 2 + |alt|;
    assert s[j] == ']' && s[j + 1] == '(' && s[j + 2] == ')';
    assert forall i :: 2 <= i < j ==> s[i] == alt[i - 2];
    assert IndexOf(s, ']', 2) == Some(j);
    assert IndexOf(s, ')', j + 2) == Some(j + 2);
  }

  /** Without a closing `)` there is no reference. */
  lemma UnclosedRejected(alt: string, tail: string)
    requires ']' !in alt && ')' !in tail
    ensures MatchAt("![" + alt + "](" + tail) == None
  {
    var s := "![" + alt + "](" + tail;
    var j := 2 + |alt|;
    assert s[j] == ']' && s[j + 1] == '(';
    assert forall i :: 2 <= i < j ==> s[i] == alt[i - 2];
    assert forall i :: j + 2 <= i < |s| ==> s[i] == tail[i - j - 2];
    assert IndexOf(s, ']', 2) == Some(j);
    assert IndexOf(s, ')', j + 2) == None;
  }
}

=== FILE: message_sanitizer.dfy ===
/** The chat-history sanitizer: adjacent plain-text messages of the user or
    the assistant are merged into one; every other message is kept as it is,
    in order. */
module MessageSanitizer {
  import opened Collections
  import opened Text

  /** A message's `content`: a string, some other JSON value (a list of parts,
      an object, a number), or no `content` key at all. */
  datatype Content = Str(text: string) | Other(repr: string) | Absent

  /** One element of the message list: a dict with its `role` (absent or not
      a string reads as `None` or as a string that is no role), its content,
      whether it has a `tool_calls` key, and its remaining keys; or any
      non-dict value. */
  datatype Message =
    | NonDict(repr: string)
    | Dict(role: Option<string>, content: Content, hasToolCalls: bool, extra: map<string, string>)

  /** The argument of `sanitize_messages`: a list, or anything else. */
  datatype Payload = Messages(items: seq<Message>) | NotAList(repr: string)

  /** A message that may take part in a merge: a user or assistant dict
      without tool calls whose content is a string. */
  predicate Mergeable(m: Message) {
    m.Dict? && (m.role == Some("user") || m.role == Some("assistant"))
    && !m.hasToolCalls && m.content.Str?
  }

  /** `can_merge` for the last kept message and the next one. The roles need
      not be equal: a user text directly after an assistant text merges too. */
  predicate CanMerge(last: Message, m: Message) {
    Mergeable(last) && Mergeable(m)
  }

  /** The merged text: both parts stripped, joined by a blank line when both
      are non-empty, and the whole stripped again. */
  function MergeText(a: string, b: string): string {
    var x := Strip(a);
    var y := Strip(b);
    Strip(x + (if x != "" && y != "" then "\n\n" else "") + y)
  }

  /** The last kept message with `m`'s text merged into its content; its role
      and every other key stay those of the kept message. */
  function Absorb(last: Message, m: Message): (r: Message)
    requires CanMerge(last, m)
    ensures Mergeable(r)
    ensures r.role == last.role && r.extra == last.extra
  {
    last.(content := Str(MergeText(last.content.text, m.content.text)))
  }

  /** One turn of the loop: merge into the last kept message or append. */
  function Step(merged: seq<Message>, m: Message): (r: seq<Message>)
    ensures |merged| <= |r| <= |merged| + 1
  {
    if |merged| > 0 && CanMerge(merged[|merged| - 1], m) then
      merged[..|merged| - 1] + [Absorb(merged[|merged| - 1], m)]
    else merged + [m]
  }

  /** The loop from a given `merged` list over the remaining messages. */
  function Fold(merged: seq<Message>, ms: seq<Message>): (r: seq<Message>)
    ensures |merged| <= |r| <= |merged| + |ms|
    ensures |ms| > 0 ==> |r| > 0
    decreases |ms|
  {
    if |ms| == 0 then merged else Fold(Step(merged, ms[0]), ms[1..])
  }

  /** `sanitize_messages` on a list. */
  function Sanitize(ms: seq<Message>): (r: seq<Message>)
    ensures |r| <= |ms|
    ensures |ms| > 0 ==> |r| > 0
  {
    Fold([], ms)
  }

  /** `sanitize_messages`: anything but a list is returned unchanged. */
  function SanitizeMessages(p: Payload): (r: Payload)
    ensures p.NotAList? ==> r == p
    ensures p.Messages? ==> r == Messages(Sanitize(p.items)) && |r.items| <= |p.items|
  {
    match p
    case Messages(items) => Messages(Sanitize(items))
    case NotAList(_) => p
  }

  /** The same loop written as the source writes it, over a growing list. */
  method SanitizeLoop(ms: seq<Message>) returns (merged: seq<Message>)
    ensures merged == Sanitize(ms)
  {
    merged := [];
    var i := 0;
    while i < |ms|
      invariant 0 <= i <= |ms|
      invariant Fold(merged, ms[i..]) == Sanitize(ms)
    {
      assert ms[i..][1..] == ms[i + 1..];
      merged := Step(merged, ms[i]);
      i := i + 1;
    }
  }

  // ---------------------------------------------------------------------
  // Properties

  /** No two neighbours of `ms` could be merged. */
  predicate NoMergeablePair(ms: seq<Message>) {
    forall i :: 0 <= i < |ms| - 1 ==> !CanMerge(ms[i], ms[i + 1])
  }

  lemma StepKeepsNoMergeablePair(merged: seq<Message>, m: Message)
    requires NoMergeablePair(merged)
    ensures NoMergeablePair(Step(merged, m))
  {
    var r := Step(merged, m);
    var n := |merged|;
    if n > 0 && CanMerge(merged[n - 1], m) {
      forall i | 0 <= i < |r| - 1
        ensures !CanMerge(r[i], r[i + 1])
      {
        assert r[i] == merged[i];
        if i + 1 < n - 1 {
          assert r[i + 1] == merged[i + 1];
        }
      }
    }
  }

  lemma {:induction false} FoldKeepsNoMergeablePair(merged: seq<Message>, ms: seq<Message>)
    requires NoMergeablePair(merged)
    ensures NoMergeablePair(Fold(merged, ms))
    decreases |ms|
  {
    if |ms| > 0 {
      StepKeepsNoMergeablePair(merged, ms[0]);
      FoldKeepsNoMergeablePair(Step(merged, ms[0]), ms[1..]);
    }
  }

  /** The result leaves nothing to merge. */
  lemma SanitizeLeavesNoMergeablePair(ms: seq<Message>)
    ensures NoMergeablePair(Sanitize(ms))
  {
    FoldKeepsNoMergeablePair([], ms);
  }

  predicate Unmergeable(m: Message) {
    !Mergeable(m)
  }

  /** The messages that cannot merge, kept in their order. */
  function Fixed(ms: seq<Message>): seq<Message> {
    Filter(Unmergeable, ms)
  }

  /** `Fixed` holds exactly the messages of the list that cannot merge. */
  lemma FixedMembers(ms: seq<Message>)
    ensures forall m :: m in Fixed(ms) <==> m in ms && !Mergeable(m)
  {
  }

  lemma FixedConcat(a: seq<Message>, b: seq<Message>)
    ensures Fixed(a + b) == Fixed(a) + Fixed(b)
  {
    FilterConcat(Unmergeable, a, b);
  }

  lemma StepKeepsFixed(merged: seq<Message>, m: Message)
    ensures Fixed(Step(merged, m)) == Fixed(merged) + Fixed([m])
  {
    var n := |merged|;
    if n > 0 && CanMerge(merged[n - 1], m) {
      var init := merged[..n - 1];
      assert merged == init + [merged[n - 1]];
      FixedConcat(init, [merged[n - 1]]);
      FixedConcat(init, [Absorb(merged[n - 1], m)]);
    } else {
      FixedConcat(merged, [m]);
    }
  }

  /** Regrouping the three parts of one turn of the loop. */
  lemma Regroup(a: seq<Message>, b: seq<Message>, c: seq<Message>, x: seq<Message>, y: seq<Message>)
    requires x == a + b && y == x + c
    ensures y == a + (b + c)
  {
  }

  lemma {:induction false} FoldKeepsFixed(merged: seq<Message>, ms: seq<Message>)
    ensures Fixed(Fold(merged, ms)) == Fixed(merged) + Fixed(ms)
    decreases |ms|
  {
    if |ms| == 0 {
      assert Fixed(merged) + Fixed(ms) == Fixed(merged);
    } else {
      FoldKeepsFixed(Step(merged, ms[0]), ms[1..]);
      StepKeepsFixed(merged, ms[0]);
      FixedConcat([ms[0]], ms[1..]);
      Regroup(Fixed(merged), Fixed([ms[0]]), Fixed(ms[1..]),
              Fixed(Step(merged, ms[0])), Fixed(Fold(merged, ms)));
      assert [ms[0]] + ms[1..] == ms;
    }
  }

  /** Nothing but mergeable text is ever dropped, added or changed: the
      messages that cannot merge come out exactly as they went in. */
  lemma SanitizeKeepsFixed(ms: seq<Message>)
    ensures Fixed(Sanitize(ms)) == Fixed(ms)
  {
    FoldKeepsFixed([], ms);
  }

  /** On a list with nothing to merge the loop appends every message. */
  lemma {:induction false} FoldOfUnmergeable(merged: seq<Message>, ms: seq<Message>)
    requires NoMergeablePair(merged + ms)
    ensures Fold(merged, ms) == merged + ms
    decreases |ms|
  {
    if |ms| > 0 {
      var n := |merged|;
      if n > 0 {
        assert (merged + ms)[n - 1] == merged[n - 1] && (merged + ms)[n] == ms[0];
      }
      assert merged + ms == (merged + [ms[0]]) + ms[1..];
      FoldOfUnmergeable(merged + [ms[0]], ms[1..]);
    }
  }

  /** Sanitizing is idempotent. */
  lemma SanitizeIdempotent(ms: seq<Message>)
    ensures Sanitize(Sanitize(ms)) == Sanitize(ms)
  {
    SanitizeLeavesNoMergeablePair(ms);
    assert [] + Sanitize(ms) == Sanitize(ms);
    FoldOfUnmergeable([], Sanitize(ms));
  }

  /** The loop over a concatenation runs over the first part, then the
      second. */
  lemma {:induction false} FoldConcat(merged: seq<Message>, a: seq<Message>, b: seq<Message>)
    ensures Fold(merged, a + b) == Fold(Fold(merged, a), b)
    decreases |a|
  {
    if |a| > 0 {
      assert (a + b)[0] == a[0];
      assert (a + b)[1..] == a[1..] + b;
      FoldConcat(Step(merged, a[0]), a[1..], b);
    } else {
      assert a + b == b;
    }
  }

  /** Messages already kept before a non-empty `merged` list are never
      touched again. */
  lemma {:induction false} FoldPrefix(kept: seq<Message>, merged: seq<Message>, ms: seq<Message>)
    requires |merged| > 0
    ensures Fold(kept + merged, ms) == kept + Fold(merged, ms)
    decreases |ms|
  {
    if |ms| > 0 {
      var all := kept + merged;
      var n := |merged|;
      assert all[|all| - 1] == merged[n - 1];
      assert all[..|all| - 1] == kept + merged[..n - 1];
      assert Step(all, ms[0]) == kept + Step(merged, ms[0]);
      FoldPrefix(kept, Step(merged, ms[0]), ms[1..]);
    }
  }

  /** A message that cannot merge splits the list: both sides are
      sanitized independently. */
  lemma SanitizeSplits(a: seq<Message>, b: seq<Message>)
    requires |b| > 0 && !Mergeable(b[0])
    ensures Sanitize(a + b) == Sanitize(a) + Sanitize(b)
  {
    FoldConcat([], a, b);
    var left := Sanitize(a);
    assert Step(left, b[0]) == left + [b[0]];
    assert Step([], b[0]) == [b[0]];
    FoldPrefix(left, [b[0]], b[1..]);
  }

  /** A message that cannot merge stays first and verbatim, and the rest of
      the list is sanitized on its own behind it: a mergeable message after
      it is neither dropped nor changed by it. */
  lemma SanitizeAfterFixed(u: Message, rest: seq<Message>)
    requires !Mergeable(u)
    ensures Sanitize([u] + rest) == [u] + Sanitize(rest)
  {
    FoldConcat([], [u], rest);
    assert Fold([], [u]) == [u];
    if |rest| > 0 {
      assert Step([u], rest[0]) == [u] + [rest[0]];
      assert Step([], rest[0]) == [rest[0]];
      FoldPrefix([u], [rest[0]], rest[1..]);
    }
  }

  /** Two plain texts of the user and the assistant become one message with
      a blank line between the stripped texts; the first message's role and
      other keys are kept. */
  lemma TwoTextsMerge(u: Message, a: Message)
    requires Mergeable(u) && Mergeable(a)
    ensures Sanitize([u, a]) == [u.(content := Str(MergeText(u.content.text, a.content.text)))]
  {
    assert [u, a][1..] == [a];
    assert [a][1..] == [];
    calc {
      Sanitize([u, a]);
      Fold([], [u, a]);
      Fold(Step([], u), [a]);
      { assert Step([], u) == [u]; }
      Fold([u], [a]);
      Fold(Step([u], a), []);
      Step([u], a);
      [Absorb(u, a)];
    }
  }

  /** The outer strip of the merged text changes nothing: the result is the
      stripped parts around the separator. */
  lemma MergeTextJoins(a: string, b: string)
    ensures Strip(a) != "" && Strip(b) != "" ==> MergeText(a, b) == Strip(a) + "\n\n" + Strip(b)
    ensures Strip(a) == "" ==> MergeText(a, b) == Strip(b)
    ensures Strip(b) == "" ==> MergeText(a, b) == Strip(a)
  {
    var x := Strip(a);
    var y := Strip(b);
    if x != "" && y != "" {
      var j := x + "\n\n" + y;
      assert j[0] == x[0] && j[|j| - 1] == y[|y| - 1];
      StripOfStripped(j);
    } else if x == "" {
      assert x + "" + y == y;
      StripIdempotent(b);
    } else {
      assert x + "" + y == x;
      StripIdempotent(a);
    }
  }

  /** The text a run of mergeable messages leaves in the message before it,
      merged one message at a time. */
  function MergedText(first: string, ms: seq<Message>): string
    requires forall i :: 0 <= i < |ms| ==> Mergeable(ms[i])
    decreases |ms|
  {
    if |ms| == 0 then first
    else
      assert Mergeable(ms[0]);
      MergedText(MergeText(first, ms[0].content.text), ms[1..])
  }

  lemma {:induction false} FoldRun(merged: seq<Message>, ms: seq<Message>)
    requires |merged| > 0 && Mergeable(merged[|merged| - 1])
    requires forall i :: 0 <= i < |ms| ==> Mergeable(ms[i])
    ensures var last := merged[|merged| - 1];
            Fold(merged, ms) == merged[..|merged| - 1] + [last.(content := Str(MergedText(last.content.text, ms)))]
    decreases |ms|
  {
    var n := |merged|;
    var last := merged[n - 1];
    if |ms| == 0 {
      assert last.(content := Str(last.content.text)) == last;
      assert merged == merged[..n - 1] + [last];
    } else {
      var next := Step(merged, ms[0]);
      assert next == merged[..n - 1] + [Absorb(last, ms[0])];
      FoldRun(next, ms[1..]);
      assert next[..n - 1] == merged[..n - 1];
    }
  }

  /** A run of mergeable messages becomes one message: the first one, with
      the texts of all merged into its content. */
  lemma SanitizeRun(ms: seq<Message>)
    requires |ms| > 0
    requires forall i :: 0 <= i < |ms| ==> Mergeable(ms[i])
    ensures Mergeable(ms[0]) &&
            Sanitize(ms) == [ms[0].(content := Str(MergedText(ms[0].content.text, ms[1..])))]
  {
    assert Step([], ms[0]) == [ms[0]];
    FoldRun([ms[0]], ms[1..]);
  }
}

=== FILE: path_policy.dfy ===
/** Path rules of the writer's image manager: normalising a path, dropping a
    leading `<task_id>/`, the one figures directory each document section may
    draw images from, and the prefix test against it. */
module PathPolicy {
  import opened Text
  import opened Decimal

  /** `_norm`: trimmed, with every backslash turned into a forward slash. */
  function Norm(p: string): (r: string)
    ensures '\\' !in r
    ensures IsStripped(r)
    ensures |r| <= |p|
  {
    var s := ReplaceBackslashes(p);
    StripSlice(s);
    var r := Strip(s);
    assert forall i :: 0 <= i < |r| ==> r[i] == s[LeadingSpaces(s) + i];
    r
  }

  /** A path already in normal form. */
  predicate IsNormal(p: string) {
    '\\' !in p && IsStripped(p)
  }

  lemma NormOfNormal(p: string)
    requires IsNormal(p)
    ensures Norm(p) == p
  {
    assert ReplaceBackslashes(p) == p;
    StripOfStripped(p);
  }

  lemma {:induction false} TrimStartReplace(s: string)
    ensures TrimStart(ReplaceBackslashes(s)) == ReplaceBackslashes(TrimStart(s))
    decreases |s|
  {
    if |s| > 0 {
      assert ReplaceBackslashes(s)[1..] == ReplaceBackslashes(s[1..]);
      TrimStartReplace(s[1..]);
    }
  }

  lemma {:induction false} TrimEndReplace(s: string)
    ensures TrimEnd(ReplaceBackslashes(s)) == ReplaceBackslashes(TrimEnd(s))
    decreases |s|
  {
    if |s| > 0 {
      assert ReplaceBackslashes(s)[..|s| - 1] == ReplaceBackslashes(s[..|s| - 1]);
      TrimEndReplace(s[..|s| - 1]);
    }
  }

  /** `_norm` strips first and then replaces backslashes; neither a backslash
      nor a slash is whitespace, so the two steps commute and `Norm` is that
      value. */
  lemma NormAsWritten(p: string)
    ensures Norm(p) == ReplaceBackslashes(Strip(p))
  {
    TrimStartReplace(p);
    TrimEndReplace(TrimStart(p));
  }

  /** Normalising twice is normalising once. */
  lemma NormIdempotent(p: string)
    ensures Norm(Norm(p)) == Norm(p)
  {
    NormOfNormal(Norm(p));
  }

  /** The prefix `_strip_task_prefix` removes: the trimmed task id with its
      trailing slashes dropped, then one slash. */
  function TaskPrefix(taskId: string): (r: string)
    ensures |r| > 0 && r[|r| - 1] == '/'
  {
    TrimTrailingSlashes(Strip(taskId)) + "/"
  }

  /** `_strip_task_prefix`: the normalised path with one leading task-id
      segment removed when it has one. */
  function StripTaskPrefix(taskId: string, p: string): (r: string)
    ensures StartsWith(Norm(p), TaskPrefix(taskId)) ==> TaskPrefix(taskId) + r == Norm(p)
    ensures !StartsWith(Norm(p), TaskPrefix(taskId)) ==> r == Norm(p)
  {
    var n := Norm(p);
    var prefix := TaskPrefix(taskId);
    if StartsWith(n, prefix) then
      assert prefix + n[|prefix|..] == n;
      n[|prefix|..]
    else n
  }

  /** Putting the task prefix in front of a normal path and stripping it
      again gives back the path. */
  lemma StripTaskPrefixRoundTrip(taskId: string, q: string)
    requires IsNormal(TaskPrefix(taskId) + q)
    ensures StripTaskPrefix(taskId, TaskPrefix(taskId) + q) == q
  {
    var prefix := TaskPrefix(taskId);
    NormOfNormal(prefix + q);
    assert (prefix + q)[..|prefix|] == prefix;
  }

  /** Exactly one segment goes: a doubled task prefix leaves one behind. */
  lemma StripTaskPrefixOnce(taskId: string, q: string)
    requires IsNormal(TaskPrefix(taskId) + TaskPrefix(taskId) + q)
    ensures StripTaskPrefix(taskId, TaskPrefix(taskId) + TaskPrefix(taskId) + q)
            == TaskPrefix(taskId) + q
  {
    var prefix := TaskPrefix(taskId);
    assert prefix + prefix + q == prefix + (prefix + q);
    StripTaskPrefixRoundTrip(taskId, prefix + q);
  }

  /** `^ques(\d+)$` on an already trimmed name. */
  predicate IsQuesName(name: string) {
    |name| > 4 && name[..4] == "ques" && IsDecimal(name[4..])
  }

  /** The section names the image policy recognises (after lower-casing). */
  predicate IsSectionName(name: string) {
    name == "eda" || name == "sensitivity_analysis" || IsQuesName(name)
  }

  /** The directory for an already normalised, lower-cased section name. */
  function AllowedDirForName(name: string): (r: string)
    ensures r == "" <==> !IsSectionName(name)
    ensures r != "" ==> r == name + "/figures/"
  {
    if name == "eda" then "eda/figures/"
    else if name == "sensitivity_analysis" then "sensitivity_analysis/figures/"
    else if IsQuesName(name) then
      assert name == "ques" + name[4..];
      "ques" + name[4..] + "/figures/"
    else ""
  }

  /** The case-insensitive key a section name is looked up by. */
  function SectionKey(section: string): string {
    Lower(Norm(section))
  }

  /** `_allowed_dir_for_section`: `<name>/figures/` for a recognised section,
      compared case-insensitively, and "" for anything else. */
  function AllowedDirForSection(section: string): (r: string)
    ensures r == "" <==> !IsSectionName(SectionKey(section))
    ensures r != "" ==> r == SectionKey(section) + "/figures/"
  {
    AllowedDirForName(SectionKey(section))
  }

  /** `_in_allowed_dir`: false for the empty directory, otherwise a plain
      prefix test on the normalised forms. */
  predicate InAllowedDir(relPath: string, allowedDir: string) {
    var ad := Norm(allowedDir);
    ad != "" && StartsWith(Norm(relPath), ad)
  }

  /** For a section's directory the test reads: the section is recognised
      and the normalised path starts with `<section>/figures/`. */
  lemma InAllowedDirOfSection(p: string, section: string)
    ensures InAllowedDir(p, AllowedDirForSection(section)) <==>
              IsSectionName(SectionKey(section)) && StartsWith(Norm(p), SectionKey(section) + "/figures/")
  {
    AllowedDirIsNormal(section);
  }

  /** An allowed directory is itself a normal path ending in a slash, so the
      prefix test needs no normalising of the directory. */
  lemma AllowedDirIsNormal(section: string)
    ensures var d := AllowedDirForSection(section);
            d == "" || (IsNormal(d) && Norm(d) == d)
  {
    var d := AllowedDirForSection(section);
    if d != "" {
      var name := Lower(Norm(section));
      assert '\\' !in name by {
        forall i | 0 <= i < |name| ensures name[i] != '\\' {
          assert name[i] == LowerChar(Norm(section)[i]);
        }
      }
      assert d == name + "/figures/";
      assert d[0] == name[0];
      assert !IsSpace(name[0]) by {
        assert name[0] == LowerChar(Norm(section)[0]);
      }
      assert '\\' !in d by {
        forall i | 0 <= i < |d| ensures d[i] != '\\' {
          if i < |name| {
            assert d[i] == name[i];
          }
        }
      }
      NormOfNormal(d);
    }
  }

  /** The prefix test only looks at the normal form of the path. */
  lemma InAllowedDirNorm(p: string, dir: string)
    ensures InAllowedDir(Norm(p), dir) == InAllowedDir(p, dir)
  {
    NormIdempotent(p);
  }

  /** The `ques<digits>` family keeps its digits verbatim, so `ques0` and
      `ques007` are recognised too. */
  lemma QuesDirectory(digits: string)
    requires IsDecimal(digits)
    ensures AllowedDirForName("ques" + digits) == "ques" + digits + "/figures/"
  {
    var name := "ques" + digits;
    assert name[..4] == "ques" && name[4..] == digits;
  }

  /** The fixed sections and the names that are not sections. */
  lemma FixedDirectories()
    ensures AllowedDirForName("eda") == "eda/figures/"
    ensures AllowedDirForName("sensitivity_analysis") == "sensitivity_analysis/figures/"
    ensures AllowedDirForName("ques") == ""
    ensures AllowedDirForName("") == ""
  {
  }

  lemma {:induction false} TrimStartLower(s: string)
    ensures TrimStart(Lower(s)) == Lower(TrimStart(s))
    decreases |s|
  {
    if |s| > 0 {
      assert Lower(s)[1..] == Lower(s[1..]);
      TrimStartLower(s[1..]);
    }
  }

  lemma {:induction false} TrimEndLower(s: string)
    ensures TrimEnd(Lower(s)) == Lower(TrimEnd(s))
    decreases |s|
  {
    if |s| > 0 {
      assert Lower(s)[..|s| - 1] == Lower(s[..|s| - 1]);
      TrimEndLower(s[..|s| - 1]);
    }
  }

  lemma NormLower(s: string)
    ensures Norm(Lower(s)) == Lower(Norm(s))
  {
    var b := ReplaceBackslashes(s);
    assert ReplaceBackslashes(Lower(s)) == Lower(b);
    TrimStartLower(b);
    TrimEndLower(TrimStart(b));
  }

  /** Section names are compared case-insensitively: names that agree once
      lower-cased get the same directory. */
  lemma AllowedDirCaseInsensitive(s: string, t: string)
    requires Lower(s) == Lower(t)
    ensures AllowedDirForSection(s) == AllowedDirForSection(t)
  {
    calc {
      SectionKey(s);
      Lower(Norm(s));
      { LowerIdempotent(Norm(s)); }
      Lower(Lower(Norm(s)));
      { NormLower(s); }
      Lower(Norm(Lower(s)));
      { NormLower(t); }
      Lower(Lower(Norm(t)));
      { LowerIdempotent(Norm(t)); }
      SectionKey(t);
    }
  }

  /** The empty section name has no figures directory, so an empty owner
      can own nothing without the audit reporting it. */
  lemma UnnamedSectionHasNoDirectory(p: string)
    ensures !InAllowedDir(p, AllowedDirForSection(""))
  {
    assert Norm("") == "";
    assert Lower("") == "";
  }

  /** No recognised section name contains a slash. */
  lemma SectionNameHasNoSlash(name: string)
    requires IsSectionName(name)
    ensures forall i :: 0 <= i < |name| ==> name[i] != '/'
  {
    if IsQuesName(name) {
      forall i | 4 <= i < |name|
        ensures name[i] != '/'
      {
        assert name[4..][i - 4] == name[i];
      }
      assert forall i :: 0 <= i < 4 ==> name[..4][i] == name[i];
    }
  }

  /** The figures directories of two sections never overlap: a path lies in
      at most one of them. */
  lemma SectionDirectoriesDisjoint(a: string, b: string, p: string)
    requires IsSectionName(a) && IsSectionName(b)
    requires StartsWith(p, AllowedDirForName(a)) && StartsWith(p, AllowedDirForName(b))
    ensures a == b
  {
    SectionNameHasNoSlash(a);
    SectionNameHasNoSlash(b);
    var da := AllowedDirForName(a);
    var db := AllowedDirForName(b);
    assert da == a + "/figures/" && db == b + "/figures/";
    assert da[..|a|] == a && da[|a|] == '/';
    assert db[..|b|] == b && db[|b|] == '/';
    assert p[..|a|] == da[..|a|] == a;
    assert p[..|b|] == db[..|b|] == b;
    assert p[|a|] == da[|a|] && p[|b|] == db[|b|];
    assert forall i :: 0 <= i < |a| ==> p[i] == p[..|a|][i] == a[i];
    assert forall i :: 0 <= i < |b| ==> p[i] == p[..|b|][i] == b[i];
    assert |a| == |b|;
    assert forall i :: 0 <= i < |a| ==> a[i] == b[i];
  }
}

=== FILE: settings.dfy ===
/** The CORS origin parser of the settings module. */
module Settings {
  import opened Text

  /** `parse_cors`: the wildcard alone, else the trimmed comma-separated
      parts, else the value itself as a one-element list. */
  function ParseCors(value: string): (r: seq<string>)
    ensures |r| >= 1
    ensures value == "*" ==> r == ["*"]
    ensures value != "*" && ',' in value ==>
              |r| == CountChar(value, ',') + 1
              && forall i :: 0 <= i < |r| ==> r[i] == Strip(Split(value, ',')[i])
    ensures ',' !in value ==> r == [value]
  {
    if value == "*" then ["*"]
    else if ',' in value then
      var parts := Split(value, ',');
      seq(|parts|, i requires 0 <= i < |parts| => Strip(parts[i]))
    else [value]
  }

  /** The comma-separated parts are, before trimming, pieces that join back
      to the value: nothing is lost but the separators' surrounding blanks. */
  lemma ParseCorsPartsRejoin(value: string)
    requires value != "*" && ',' in value
    ensures |ParseCors(value)| == |Split(value, ',')|
    ensures Join(Split(value, ','), ',') == value
    ensures forall i :: 0 <= i < |ParseCors(value)| ==> ',' !in ParseCors(value)[i]
  {
    JoinSplit(value, ',');
    var parts := Split(value, ',');
    var r := ParseCors(value);
    forall i | 0 <= i < |r|
      ensures ',' !in r[i]
    {
      assert r[i] == Strip(parts[i]);
      StripKeepsAbsent(parts[i], ',');
    }
  }

  /** A value with a comma yields at least two origins. */
  lemma ParseCorsCommaSplits(value: string)
    requires value != "*" && ',' in value
    ensures |ParseCors(value)| >= 2
  {
    var k :| 0 <= k < |value| && value[k] == ',';
    CountCharSlices(value, ',', k);
    assert value[k..][0] == ',';
  }
}

=== FILE: text.dfy ===
/** Python string primitives the core relies on, written out over `seq<char>`:
    `str.strip()`, `startswith`/`endswith`, `in`, `split(",")`, the
    non-overlapping match count of `re.findall(re.escape(p), s)`, and
    `lower()` on ASCII letters. */
module Text {
  import opened Collections

  /** Python's `str.isspace()`: the characters `str.strip()` removes. */
  predicate IsSpace(c: char) {
    var n := c as int;
    || (0x09 <= n <= 0x0D) || (0x1C <= n <= 0x20)
    || n == 0x85 || n == 0xA0 || n == 0x1680
    || (0x2000 <= n <= 0x200A) || n == 0x2028 || n == 0x2029
    || n == 0x202F || n == 0x205F || n == 0x3000
  }

  function TrimStart(s: string): string
    decreases |s|
  {
    if |s| > 0 && IsSpace(s[0]) then TrimStart(s[1..]) else s
  }

  function TrimEnd(s: string): string
    decreases |s|
  {
    if |s| > 0 && IsSpace(s[|s| - 1]) then TrimEnd(s[..|s| - 1]) else s
  }

  /** `TrimStart` drops exactly the leading whitespace. */
  lemma {:induction false} TrimStartFacts(s: string)
    ensures var r := TrimStart(s);
            |r| <= |s| && r == s[|s| - |r|..]
            && (forall i :: 0 <= i < |s| - |r| ==> IsSpace(s[i]))
            && (|r| > 0 ==> !IsSpace(r[0]))
    decreases |s|
  {
    if |s| > 0 && IsSpace(s[0]) {
      TrimStartFacts(s[1..]);
    }
  }

  /** `TrimEnd` drops exactly the trailing whitespace. */
  lemma {:induction false} TrimEndFacts(s: string)
    ensures var r := TrimEnd(s);
            |r| <= |s| && r == s[..|r|]
            && (forall i :: |r| <= i < |s| ==> IsSpace(s[i]))
            && (|r| > 0 ==> !IsSpace(r[|r| - 1]))
    decreases |s|
  {
    if |s| > 0 && IsSpace(s[|s| - 1]) {
      TrimEndFacts(s[..|s| - 1]);
    }
  }

  /** A string neither starting nor ending with whitespace. */
  predicate IsStripped(s: string) {
    |s| == 0 || (!IsSpace(s[0]) && !IsSpace(s[|s| - 1]))
  }

  /** Python's `s.strip()`. */
  function Strip(s: string): (r: string)
    ensures IsStripped(r)
    ensures |r| <= |s|
  {
    TrimStartFacts(s);
    TrimEndFacts(TrimStart(s));
    var r := TrimEnd(TrimStart(s));
    assert |r| > 0 ==> r[0] == TrimStart(s)[0];
    r
  }

  /** Number of leading whitespace characters of `s`. */
  function LeadingSpaces(s: string): nat {
    TrimStartFacts(s);
    |s| - |TrimStart(s)|
  }

  /** `Strip(s)` is the slice of `s` between its leading and its trailing
      whitespace. */
  lemma StripSlice(s: string)
    ensures LeadingSpaces(s) + |Strip(s)| <= |s|
    ensures Strip(s) == s[LeadingSpaces(s)..LeadingSpaces(s) + |Strip(s)|]
    ensures forall k :: 0 <= k < LeadingSpaces(s) ==> IsSpace(s[k])
    ensures forall k :: LeadingSpaces(s) + |Strip(s)| <= k < |s| ==> IsSpace(s[k])
  {
    TrimStartFacts(s);
    TrimEndFacts(TrimStart(s));
  }

  /** Stripping adds no character. */
  lemma StripKeepsAbsent(s: string, c: char)
    requires c !in s
    ensures c !in Strip(s)
  {
    StripSlice(s);
    var r := Strip(s);
    forall i | 0 <= i < |r|
      ensures r[i] != c
    {
      assert r[i] == s[LeadingSpaces(s) + i];
    }
  }

  lemma StripOfStripped(s: string)
    requires IsStripped(s)
    ensures Strip(s) == s
  {
  }

  /** Stripping twice is stripping once. */
  lemma StripIdempotent(s: string)
    ensures Strip(Strip(s)) == Strip(s)
  {
    StripOfStripped(Strip(s));
  }

  /** Every character of `s` is whitespace exactly when it strips to "". */
  lemma StripEmptyIffBlank(s: string)
    ensures Strip(s) == "" <==> forall k :: 0 <= k < |s| ==> IsSpace(s[k])
  {
    StripSlice(s);
  }

  predicate StartsWith(s: string, prefix: string) {
    |prefix| <= |s| && s[..|prefix|] == prefix
  }

  predicate EndsWith(s: string, suffix: string) {
    |suffix| <= |s| && s[|s| - |suffix|..] == suffix
  }

  /** Python's `p in s` for strings: `p` occurs somewhere in `s`. */
  predicate Contains(s: string, p: string)
    decreases |s|
  {
    StartsWith(s, p) || (|s| > 0 && Contains(s[1..], p))
  }

  /** `p` occurs in `s` starting at index `i`. */
  predicate OccursAt(s: string, p: string, i: int) {
    0 <= i <= |s| - |p| && s[i..i + |p|] == p
  }

  /** `Contains` is the existence of an occurrence position. */
  lemma {:induction false} ContainsAt(s: string, p: string)
    ensures Contains(s, p) <==> exists i :: OccursAt(s, p, i)
    decreases |s|
  {
    if |s| > 0 {
      ContainsAt(s[1..], p);
      if exists i :: OccursAt(s, p, i) {
        var i :| OccursAt(s, p, i);
        if i > 0 {
          OccursInTail(s, p, i - 1);
        }
      }
      if Contains(s[1..], p) {
        var i :| OccursAt(s[1..], p, i);
        OccursInTail(s, p, i);
      }
      if StartsWith(s, p) {
        assert OccursAt(s, p, 0);
      }
    } else if |p| == 0 {
      assert OccursAt(s, p, 0);
    }
  }

  /** The number of matches `re.findall(re.escape(p), s)` returns: occurrences
      of `p` found left to right without overlap; the empty pattern matches
      at each of the |s| + 1 positions. */
  function CountOccurrences(p: string, s: string): (r: nat)
    ensures |p| > 0 ==> r * |p| <= |s|
    decreases |s|
  {
    if |p| == 0 then |s| + 1
    else if |s| < |p| then 0
    else if s[..|p|] == p then 1 + CountOccurrences(p, s[|p|..])
    else CountOccurrences(p, s[1..])
  }

  /** A non-empty `p` is counted at least once exactly when it occurs. */
  lemma {:induction false} CountPositiveIffContains(p: string, s: string)
    requires |p| > 0
    ensures CountOccurrences(p, s) >= 1 <==> Contains(s, p)
    decreases |s|
  {
    if |s| < |p| {
      if Contains(s, p) {
        ContainsAt(s, p);
      }
    } else if s[..|p|] != p {
      CountPositiveIffContains(p, s[1..]);
    }
  }

  /** An occurrence anywhere makes the count positive. */
  lemma CountAtLeastOne(p: string, s: string, j: int)
    requires |p| > 0 && OccursAt(s, p, j)
    ensures CountOccurrences(p, s) >= 1
  {
    ContainsAt(s, p);
    CountPositiveIffContains(p, s);
  }

  /** Two occurrences of `p` that do not overlap. */
  predicate TwoApart(s: string, p: string) {
    exists i, j :: 0 <= i <= |s| && 0 <= j <= |s| && i + |p| <= j && OccursAt(s, p, i) && OccursAt(s, p, j)
  }

  /** An occurrence in `s[d..]` is one in `s`, `d` places further on. */
  lemma OccursShift(s: string, p: string, d: int, k: int)
    requires 0 <= d <= |s| && k >= 0
    ensures OccursAt(s[d..], p, k) <==> OccursAt(s, p, k + d)
  {
    if k <= |s| - d - |p| {
      assert s[d..][k..k + |p|] == s[k + d..k + d + |p|];
    }
  }

  lemma OccursInTail(s: string, p: string, k: int)
    requires |s| > 0 && k >= 0
    ensures OccursAt(s[1..], p, k) <==> OccursAt(s, p, k + 1)
  {
    OccursShift(s, p, 1, k);
  }

  /** Two occurrences that do not overlap are counted at least twice, however
      far apart they are. */
  lemma {:induction false} CountTwoApart(p: string, s: string, i: int, j: int)
    requires |p| > 0 && OccursAt(s, p, i) && OccursAt(s, p, j) && i + |p| <= j
    ensures CountOccurrences(p, s) >= 2
    decreases |s|
  {
    assert OccursAt(s, p, 0) ==> s[..|p|] == p;
    if s[..|p|] == p {
      OccursShift(s, p, |p|, j - |p|);
      CountAtLeastOne(p, s[|p|..], j - |p|);
    } else {
      OccursInTail(s, p, i - 1);
      OccursInTail(s, p, j - 1);
      CountTwoApart(p, s[1..], i - 1, j - 1);
    }
  }

  /** A count of two or more comes from two occurrences that do not overlap. */
  lemma {:induction false} ApartFromCountTwo(p: string, s: string)
    requires |p| > 0 && CountOccurrences(p, s) >= 2
    ensures TwoApart(s, p)
    decreases |s|
  {
    if s[..|p|] == p {
      var t := s[|p|..];
      CountPositiveIffContains(p, t);
      ContainsAt(t, p);
      var k :| OccursAt(t, p, k);
      assert s[|p| + k..|p| + k + |p|] == t[k..k + |p|];
      assert OccursAt(s, p, 0) && OccursAt(s, p, |p| + k);
    } else {
      var t := s[1..];
      ApartFromCountTwo(p, t);
      var i, j :| 0 <= i <= |t| && 0 <= j <= |t| && i + |p| <= j && OccursAt(t, p, i) && OccursAt(t, p, j);
      OccursInTail(s, p, i);
      OccursInTail(s, p, j);
      assert OccursAt(s, p, i + 1) && OccursAt(s, p, j + 1);
    }
  }

  /** `count(p) >= 2` means exactly that `p` occurs twice without overlap,
      not necessarily next to each other. */
  lemma CountTwoIffTwoApart(p: string, s: string)
    requires |p| > 0
    ensures CountOccurrences(p, s) >= 2 <==> TwoApart(s, p)
  {
    if CountOccurrences(p, s) >= 2 {
      ApartFromCountTwo(p, s);
    }
    if TwoApart(s, p) {
      var i, j :| 0 <= i <= |s| && 0 <= j <= |s| && i + |p| <= j && OccursAt(s, p, i) && OccursAt(s, p, j);
      CountTwoApart(p, s, i, j);
    }
  }

  /** Two back-to-back copies of `p` are counted twice. */
  lemma CountTwoCopies(p: string, rest: string)
    requires |p| > 0
    ensures CountOccurrences(p, p + p + rest) >= 2
  {
    var s := p + p + rest;
    assert s[..|p|] == p;
    assert s[|p|..] == p + rest;
    assert (p + rest)[..|p|] == p;
  }

  /** Position of the first `c` at or after `from`, if any. */
  function IndexOf(s: string, c: char, from: nat): (r: Option<nat>)
    decreases |s| - from
    ensures r.Some? ==> from <= r.value < |s| && s[r.value] == c
                        && forall k :: from <= k < r.value ==> s[k] != c
    ensures r.None? ==> forall k :: from <= k < |s| ==> s[k] != c
  {
    if from >= |s| then None
    else if s[from] == c then Some(from)
    else IndexOf(s, c, from + 1)
  }

  /** Number of occurrences of the character `c` in `s`. */
  function CountChar(s: string, c: char): nat
    decreases |s|
  {
    if |s| == 0 then 0 else (if s[0] == c then 1 else 0) + CountChar(s[1..], c)
  }

  lemma {:induction false} CountCharSlices(s: string, c: char, n: nat)
    requires n <= |s|
    ensures CountChar(s, c) == CountChar(s[..n], c) + CountChar(s[n..], c)
    decreases n
  {
    if n > 0 {
      assert s[..n][1..] == s[1..][..n - 1];
      assert s[n..] == s[1..][n - 1..];
      CountCharSlices(s[1..], c, n - 1);
    } else {
      assert s[n..] == s;
    }
  }

  lemma {:induction false} CountCharNone(s: string, c: char)
    requires forall k :: 0 <= k < |s| ==> s[k] != c
    ensures CountChar(s, c) == 0
    decreases |s|
  {
    if |s| > 0 {
      CountCharNone(s[1..], c);
    }
  }

  /** Python's `s.split(sep)` for a one-character separator: the pieces between
      consecutive separators, none of which contains `sep`. */
  function Split(s: string, sep: char): (r: seq<string>)
    decreases |s|
    ensures |r| == CountChar(s, sep) + 1
    ensures forall k :: 0 <= k < |r| ==> sep !in r[k]
  {
    match IndexOf(s, sep, 0)
    case None =>
      CountCharNone(s, sep);
      [s]
    case Some(i) =>
      CountCharSlices(s, sep, i);
      CountCharNone(s[..i], sep);
      assert s[i..][1..] == s[i + 1..];
      var rest := Split(s[i + 1..], sep);
      assert sep !in s[..i];
      [s[..i]] + rest
  }

  /** Python's `sep.join(pieces)`. */
  function Join(pieces: seq<string>, sep: char): string
  {
    if |pieces| == 0 then ""
    else if |pieces| == 1 then pieces[0]
    else pieces[0] + [sep] + Join(pieces[1..], sep)
  }

  /** Splitting and re-joining on the same separator gives back the input. */
  lemma {:induction false} JoinSplit(s: string, sep: char)
    ensures Join(Split(s, sep), sep) == s
    decreases |s|
  {
    match IndexOf(s, sep, 0)
    case None =>
    case Some(i) =>
      JoinSplit(s[i + 1..], sep);
      assert s == s[..i] + [sep] + s[i + 1..];
  }

  /** Python's `s.replace("\\", "/")`. */
  function ReplaceBackslashes(s: string): (r: string)
    ensures |r| == |s|
    ensures forall i :: 0 <= i < |s| ==> r[i] == if s[i] == '\\' then '/' else s[i]
  {
    if |s| == 0 then ""
    else [if s[0] == '\\' then '/' else s[0]] + ReplaceBackslashes(s[1..])
  }

  function LowerChar(c: char): char {
    if 'A' <= c <= 'Z' then (c as int + 32) as char else c
  }

  /** `lower()` on ASCII letters; other characters are kept. */
  function Lower(s: string): (r: string)
    ensures |r| == |s|
    ensures forall i :: 0 <= i < |s| ==> r[i] == LowerChar(s[i])
  {
    if |s| == 0 then "" else [LowerChar(s[0])] + Lower(s[1..])
  }

  lemma LowerIdempotent(s: string)
    ensures Lower(Lower(s)) == Lower(s)
  {
  }

  /** Python's `s.rstrip("/")`. */
  function TrimTrailingSlashes(s: string): (r: string)
    ensures |r| <= |s| && r == s[..|r|]
    ensures |r| == 0 || r[|r| - 1] != '/'
    ensures forall i :: |r| <= i < |s| ==> s[i] == '/'
  {
    if |s| > 0 && s[|s| - 1] == '/' then TrimTrailingSlashes(s[..|s| - 1]) else s
  }
}
